=== FILE: README.md ===
# owo_captcha_checker, modelled in Dafny

The repository is a Discord bot that watches for OwO captcha messages and
alerts the owner on Telegram. It ships as two near-identical scripts,
`bot.py` and `telegram_register_bot.py`. Each script:

- loads a word list, a list of DM users and two `id:value` maps from text
  files at import time;
- checks every Discord message against the word list;
- sends one Telegram alert per watched channel binding, plus one for a DM
  from a listed user;
- through a Telegram `/register <discord_id> <channel_id>` command, appends
  a new user to the three registration files.

This project models that decision core as pure functions, and proves what
each piece promises:

- the loaders (`load_wordlist`, `load_dm_users`, `load_notification_map`,
  `load_server_channel_map`);
- the case-insensitive substring matcher;
- the routing in `on_message`;
- the guard in `send_telegram_message`;
- `register_user` with `add_dm_user` and `add_notification_mapping`.

It also proves the round trip from a registration, through the loaders,
to an alert.

Both scripts are covered by one model. The flag `skipComments` is true
for `telegram_register_bot.py`, whose loaders and duplicate check also
pass over lines starting with `#`, and false for `bot.py`.

Modules, in dependency order:

| file | module | what it holds |
|---|---|---|
| basics.dfy | `Basics` | `Option` |
| text.dfy | `Text` | `str.strip`, `str.lower`, `in` on strings, `split(':', 1)`, `str.split()` on ASCII text |
| numbers.dfy | `Numbers` | `int()` of a decimal string, `str(n)` |
| linefile.dfy | `LineFile` | a file as its content; `for line in f` (universal newlines); append mode |
| dict.dfy | `Dict` | a Python `dict` with integer keys, in insertion order |
| loaders.dfy | `Loaders` | the four loaders and the duplicate check's re-read of `dm_users.txt` |
| matcher.dfy | `Matcher` | `any(word in content.lower() for word in wordlist)` |
| routing.dfy | `Routing` | `on_message` up to the calls of `send_telegram_message` |
| delivery.dfy | `Delivery` | `send_telegram_message` up to the HTTP POST |
| registration.dfy | `Registration` | `register_user` as a transition on the three files |
| bot.dfy | `Bot` | startup loading and the registration-to-alert round trip |

Modelling choices:

- **Files are their content** (`string`). A file is read by `LineFile.Lines`, which follows Python's universal newlines: `\n`, `\r` and `\r\n` each end a line. Appending is string concatenation.
- **Dicts keep insertion order.** A `Dict<V>` is a `seq<(int, V)>` association list. Assigning an existing key keeps its place, so routing visits bindings in the same order as `server_channel_map.items()`.
- **`int()` failures are values.** `int()` is modelled for ASCII: surrounding whitespace, an optional sign, and digits with single `_` separators. At import time its `ValueError` kills the script, so a loader returns `Malformed(line)` for the first line it cannot parse, and `Bot.Load` returns `None`.
- **Routing decisions record who they are for.** Each decision carries the Discord id it was made for (`subject`), the chat it is addressed to, and the alert text.
- **Alert texts are parameters** (`Texts`). In `bot.py` they include a timestamp; in `telegram_register_bot.py` they are constant.

## Model

| member | source | states |
|---|---|---|
| `Text.Strip` | bot.py:15 | `line.strip()`: the result is the slice of the line between a leading and a trailing run of whitespace, has no surrounding whitespace itself, is empty exactly when the line is all whitespace, and leaves already-trimmed text unchanged |
| `Text.Lower` | bot.py:73 | `content.lower()` maps every character to its lower-case form, keeps the length, and leaves no upper-case letter |
| `Text.ContainsIff` | bot.py:73 | `word in text` holds exactly when the word occurs at some position of the text |
| `Text.SplitFirstAt` | bot.py:99 | `line.split(':', 1)` on `a:b` with no `:` in `a` gives back `a` and `b`, so `b` may itself contain `:` |
| `Text.Tokens` | bot.py:137 | `message.text.split()`: every word is non-empty and free of whitespace, and the words run together give back exactly the non-whitespace characters of the text, in order |
| `Text.TokensAtSpace` | bot.py:137 | a whitespace character separates words: the text around it splits into the words before it followed by the words after it |
| `Text.TokensUnwords` | bot.py:137 | `text.split()` on words joined by spaces returns exactly those words |
| `Numbers.ParseInt` | bot.py:22 | `int(text)`: text whose stripped form is a digit string is accepted with its base-10 value; anything accepted is non-blank and contains a digit; it consists of digits and `_` alone, apart from a sign as its first character, so text such as `1a` is refused |
| `Numbers.DecimalRoundTrip` | bot.py:128 | the decimal text that `f'{telegram_chat_id}'` writes for any integer, negative chat ids included, is text `int()` reads back as that same integer (`int(str(n)) == n`) |
| `Numbers.ParseDigits` | bot.py:143 | every string `isdigit()` accepts (ASCII) is accepted by `int()`, with its decimal value |
| `LineFile.Lines` | bot.py:14 | reading a file yields terminator-free lines, and at least one line for a non-empty file |
| `LineFile.LinesFirstRecord` | bot.py:14 | a terminator-free record ended by `\n`, by `\r\n`, or by a lone `\r` not followed by `\n`, is read as one line, and the reading continues after the terminator |
| `LineFile.LinesAppend` | bot.py:14 | reading a file that ends its last line, followed by more text, reads the two parts one after the other, unless a final `\r` and a leading `\n` fuse into one terminator |
| `LineFile.AppendRecord` | bot.py:122-123 | append mode only adds after what the file holds, and leaves the file ending its last line |
| `LineFile.AppendRecordRoundTrip` | bot.py:121-123 | appending `record\n` to a file that ends its last line adds exactly the line `record` |
| `LineFile.AppendRecordMerges` | bot.py:126-128 | appending to a file whose last line is unterminated adds no line: the record is glued onto the last one |
| `LineFile.AppendRecordFixedRoundTrip` | bot.py:121-128 | with the last line terminated first, every append adds exactly one line, whatever the file held |
| `Dict.Get` | bot.py:77 | lookup finds a value exactly when the key is present, and the value is one bound to that key |
| `Dict.Put` | bot.py:100 | `mapping[k] = v` makes `k` map to `v` and leaves every other key alone; an existing key keeps its place, a new key goes at the end |
| `Loaders.LoadWordlist` | bot.py:13-15 | at most one word per line, and every word is non-empty and lower case |
| `Loaders.WordlistMembership` | bot.py:13-15 | a word is in the list exactly when some non-blank line strips and lower-cases to it (with `skipComments`, a `#` line never does, as at telegram_register_bot.py:12-14); every word is non-empty lower case |
| `Loaders.WordlistAppend` | telegram_register_bot.py:12-14 | one more line adds its stripped, lower-cased form at the end, unless it is blank (or a comment with `skipComments`): file order is kept |
| `Loaders.LoadDmUsers` | bot.py:20-22 | the DM list loads exactly when every kept line is an integer; otherwise it fails at a kept line `int()` rejects |
| `Loaders.DmUsersMembership` | telegram_register_bot.py:19-21 | an id is listed exactly when some kept line parses to it |
| `Loaders.StoredIds` | bot.py:147-148 | at most one stored id per line, and each is trimmed and neither blank nor (with `skipComments`) a comment |
| `Loaders.StoredIdsMembership` | bot.py:147-148 | the duplicate check's list holds exactly the stripped kept lines of `dm_users.txt` |
| `Loaders.LoadMap` | bot.py:93-113 | `load_notification_map` and `load_server_channel_map`: the map loads exactly when no kept `key:value` line has a key, or channel value, that `int()` rejects; otherwise loading stops at the first such line; a loaded map holds each key once |
| `Loaders.LastLineWins` | bot.py:93-101 | in a loaded map, the last line that binds a key decides its value |
| `Loaders.AbsentKey` | telegram_register_bot.py:85-93 | a key is missing from the loaded map exactly when no line binds it |
| `Loaders.SkippedLineIsInert` | telegram_register_bot.py:97-105 | a blank line, a `#` line (with `skipComments`) or a line without `:` changes neither whether the map loads nor the map |
| `Loaders.NoColonSkipped` | bot.py:98 | a line without `:` binds nothing |
| `Loaders.BadLineAborts` | bot.py:105-113 | a kept `key:value` line whose key, or channel value, `int()` rejects makes the load fail at that line or an earlier one |
| `Matcher.Matches` | bot.py:73 | the message matches exactly when some word of the list is a substring of the lower-cased content |
| `Matcher.MatchesIff` | bot.py:73 | the message matches exactly when some word occurs in the lower-cased content; an empty word list matches nothing |
| `Matcher.TriggerInAnyCase` | telegram_register_bot.py:71 | content containing a word in any letter case matches |
| `Matcher.MatchesIgnoresCase` | bot.py:83 | lower-casing the content first changes nothing |
| `Routing.Target` | bot.py:77 | `notification_map.get(id, TELEGRAM_CHAT_ID)`: the mapped chat when the id is a key, otherwise the fallback |
| `Routing.ChannelDecisions` | bot.py:71-79 | every decision is for an id bound to the message's channel, carries the channel alert text and goes to that id's target; there is at most one per binding, and none unless the content matches |
| `Routing.Route` | bot.py:63-89 | the bot's own messages give no decisions whatever their content, and neither does content that matches no word |
| `Routing.ChannelRouting` | bot.py:71-79 | a matching message produces a decision for an id exactly when the id is bound to the message's channel, and at most one per id |
| `Routing.DmDecisions` | bot.py:82-89 | at most one DM decision, made exactly for a matching DM from a listed author, addressed to that author's target |
| `Routing.SoleBinding` | telegram_register_bot.py:69-74 | a matching message in a channel bound to a single id yields exactly one alert, to that id's target |
| `Delivery.Deliver` | telegram_register_bot.py:45-52 | a send happens exactly when the token is set and the chat, or else the fallback, is non-empty; it goes to the chat if that is non-empty, otherwise to the fallback |
| `Delivery.Dispatch` | bot.py:79 | no token means no request at all; with a token and a fallback every decision becomes a request; every request is the delivery of some decision, and none has an empty chat |
| `Delivery.DispatchOne` | bot.py:79 | a single decision gives its delivery's request when that goes ahead, and no request otherwise: at most one request per decision |
| `Delivery.DispatchConcat` | bot.py:79-89 | the requests for two runs of decisions are those of the first run followed by those of the second, so requests keep the order of their decisions |
| `Delivery.DispatchIncludes` | bot.py:89 | every decision whose delivery goes ahead appears among the requests |
| `Delivery.Sends` | bot.py:63-89 | the bot's own messages, any message when the token is missing, and content that matches no word cause no request; every request carries one of the two alert texts to a non-empty chat |
| `Delivery.AlertDestination` | bot.py:50-52 | an alert for an id goes to its mapped chat when that is non-empty, otherwise to the fallback; with neither, nothing is sent |
| `Delivery.BoundIdAlerted` | telegram_register_bot.py:69-74 | an id bound to the channel and mapped to a chat gets the channel alert in that chat, and with a token it is sent there |
| `Delivery.ListedUserAlerted` | telegram_register_bot.py:77-81 | a listed user mapped to a chat gets the DM alert in that chat, and with a token it is sent there |
| `Registration.Decide` | bot.py:134-158 | fewer than three words give the usage reply; a non-digit id or channel gives the invalid reply; a digit id and channel give the duplicate reply, naming the id, exactly when the id is already stored, and are registered otherwise; only success writes, and it writes `id`, `id:chat` and `id:channel`, in that order |
| `Registration.DecideReadsTwoWords` | bot.py:138-142 | only the number of words and the second and third words decide the outcome |
| `Registration.ExtraTokensIgnored` | telegram_register_bot.py:129-134 | words after the channel id change nothing |
| `Registration.Register` | bot.py:137-148 | fewer than three words give the usage reply; a success registers the second and third words of the command, for an id not yet stored |
| `Registration.Transition` | bot.py:137-155 | usage, invalid and duplicate replies leave all three files unchanged; a success only adds text at the end of each file, and adds some to all three |
| `Registration.SuccessAppendsLines` | bot.py:151-155 | on files ready for appending, a success adds exactly one line to each file |
| `Registration.RegisterRoundTrip` | telegram_register_bot.py:143-147 | re-reading after a success gives `int(id)` appended to the DM list, bound to the chat and to `int(channel)`, and `id` among the stored ids; a file that failed to load still fails |
| `Registration.SecondRegistrationRejected` | telegram_register_bot.py:139-142 | registering the same id again is refused as a duplicate and writes nothing |
| `Registration.LeadingZerosNotDuplicates` | bot.py:147-148 | the duplicate check compares strings: with `7` registered, `007` is accepted, although `int()` reads both as 7 |
| `Registration.MissingNewlineLosesBinding` | bot.py:126-128 | as written, `1:55` without a final newline plus a registration of id 2 from chat 9 reads back as id 1 bound to `552:9`, and id 2 unbound |
| `Bot.Load` | bot.py:12-24 | given `SERVER_CHANNEL_ID` and `DM_USER_ID` that `int()` accepts, the script starts exactly when all three id files load (the maps are loaded at bot.py:103 and bot.py:115); the loaded maps have unique keys and every word is non-empty lower case |
| `Bot.RegistrationLoads` | bot.py:151-155 | after a success, a restarted bot still loads, with the id listed for DMs, mapped to the registering chat and bound to the channel |
| `Bot.RegisteredChannelIsWatched` | bot.py:71-79 | after a registration on files ready for appending (for the code as written, files that end their last line), a restarted bot alerts the registering chat when someone else's matching message appears in the registered channel, and with a token sends it |
| `Bot.RegisteredUserIsWatchedInDms` | bot.py:82-89 | after a registration on files ready for appending, a matching DM from the registered id alerts the registering chat |

## Left out

- Discord and Telegram SDK objects, decorators, event loops, `process_commands` and `reply_to`: the reply is the `Registration.Reply` datatype.
- `/start` (`send_welcome`): it only sends a fixed welcome text.
- The HTTP POST in `send_telegram_message`, its status check and exception handling: only whether a request is made, and its chat and text, are modelled.
- `load_dotenv` and `os.getenv`: the Telegram token and `TELEGRAM_CHAT_ID` are parameters, and `SERVER_CHANNEL_ID` and `DM_USER_ID` are read but never used afterwards.
- `print` logging.
- The `__main__` threads. The running bot's maps are never updated by a registration; the model shows this by taking the configuration as a value that `Registration.Transition` does not touch. The effect of a registration is only visible through a restart (`Bot.Load`).
- `datetime.now()`: `bot.py` formats the time once per alert. The model takes each alert text as a fixed parameter, so alerts for one message share one text.
- Python's Unicode semantics of `str.lower`, `str.isdigit`, `str.strip`, `str.split()` and `int()`. Only ASCII is modelled; for `strip` and `split`, whitespace is ASCII whitespace plus the separators `\x1c`–`\x1f`.
- `message.author == bot.user` is modelled as equality of author ids.
- The `except IndexError` branch of `register_user`: it is unreachable once three words are present.
- File I/O failures (missing files, permissions) and the absence of locking between concurrent appends.
- Bot.Load: does not model that the word list is loaded before the DM list, and both before the maps. When two files are malformed, the script stops at the first in that order; the model only says that it stops. Nor does it model the `int()` of `SERVER_CHANNEL_ID` and `DM_USER_ID` at bot.py:28-29 (telegram_register_bot.py:27-28), which runs between the DM list and the maps: a value `int()` rejects, a blank one included, also stops the script, even when every file loads.

Where one might expect otherwise, the model follows the code:

- Malformed map lines are not silently skipped: `int()` raises at import time.
- A registration does not update the running bot's maps.
- `bot.py` does not skip `#` lines anywhere.

## Findings

| source | as written | input that shows it | evidently intended | confidence | as-written member | corrected member |
|---|---|---|---|---|---|---|
| bot.py:121-128 | each registration appends `record\n` in append mode, without checking that the file ends with a newline | `notification_map.txt` holding `1:55` with no final newline, then `/register 2 3` from chat 9: the file reads back as the single binding 1 → `552:9`, and id 2 gets no chat | every registration adds one line of its own (the round trip the loaders rely on) | high, not executed | `Registration.MissingNewlineLosesBinding` | `LineFile.AppendRecordFixedRoundTrip` |

The same append code is at telegram_register_bot.py:113-120 and at
telegram_register_bot.py:146-147. The corrected append mode
(`Registration.TerminateFirst`) terminates an unterminated last line
first. `Registration.RegisterRoundTrip`, `Bot.RegistrationLoads`,
`Bot.RegisteredChannelIsWatched` and `Bot.RegisteredUserIsWatchedInDms`
take the append mode as a parameter. They prove the intended round trip
for the corrected mode on any files. For the code as written they prove
it on files that already end their last line
(`Registration.ReadyForAppend`).

=== FILE: basics.dfy ===
/** Small shared datatypes. */
module Basics {

  /** A value that may be absent: Python's `None` or a present value. */
  datatype Option<+T> = None | Some(value: T)

  /** Putting a prefix in front commutes with appending a suffix. */
  lemma PrefixAppend<T>(whole: seq<T>, first: seq<T>, restWhole: seq<T>, front: seq<T>,
                        restFront: seq<T>, back: seq<T>)
    requires whole == first + restWhole
    requires restWhole == restFront + back
    requires front == first + restFront
    ensures whole == front + back
  {
  }
}

=== FILE: bot.dfy ===
/**
 * Startup and the path from a registration to an alert: the module-level
 * state both scripts build at import time from the four files, and what a
 * bot started after a registration does with a matching message.
 */
module Bot {

  import opened Basics
  import opened Text
  import opened Numbers
  import opened LineFile
  import opened Dict
  import opened Loaders
  import opened Matcher
  import opened Routing
  import opened Delivery
  import opened Registration

  /**
   * The import-time loads: `wordlist.txt` (content `wordlistFile`) and the
   * three registration files. A loader that hits a line `int()` rejects
   * raises, and the script never gets as far as running: `None`.
   */
  function Load(botId: int, wordlistFile: string, files: Files, fallback: Option<string>, skipComments: bool)
    : (r: Option<Config>)
    ensures r.Some? <==> && LoadDmUsers(Lines(files.dmUsers), skipComments).Loaded?
                         && LoadNotificationMap(Lines(files.notificationMap), skipComments).Loaded?
                         && LoadServerChannelMap(Lines(files.serverChannels), skipComments).Loaded?
    ensures r.Some? ==> && r.value.botId == botId && r.value.fallback == fallback
                        && UniqueKeys(r.value.notification) && UniqueKeys(r.value.channels)
                        && forall w :: w in r.value.wordlist ==> w != [] && IsLowerCase(w)
  {
    var dm := LoadDmUsers(Lines(files.dmUsers), skipComments);
    var notification := LoadNotificationMap(Lines(files.notificationMap), skipComments);
    var channels := LoadServerChannelMap(Lines(files.serverChannels), skipComments);
    if dm.Malformed? || notification.Malformed? || channels.Malformed? then None
    else
      var words := LoadWordlist(Lines(wordlistFile), skipComments);
      assert forall w :: w in words ==> w != [] && IsLowerCase(w) by {
        forall w | w in words ensures w != [] && IsLowerCase(w) {
          WordlistMembership(Lines(wordlistFile), skipComments, w);
        }
      }
      Some(Config(botId, words, dm.value, notification.value, channels.value, fallback))
  }

  /**
   * A registration leaves a loadable set of files loadable, and the
   * registered id ends up listed for DMs, mapped to the registering chat
   * and bound to the registered channel.
   */
  lemma {:induction false} RegistrationLoads(mode: AppendMode, botId: int, wordlistFile: string, files: Files,
                                             fallback: Option<string>, command: string, chatId: int,
                                             skipComments: bool)
    requires ReadyForAppend(mode, files)
    requires Transition(mode, files, command, chatId, skipComments).0.Registered?
    requires Load(botId, wordlistFile, files, fallback, skipComments).Some?
    ensures var (reply, after) := Transition(mode, files, command, chatId, skipComments);
            var cfg := Load(botId, wordlistFile, after, fallback, skipComments);
            var key := GroupedValue(reply.id) as int;
            && cfg.Some?
            && key in cfg.value.dmUsers
            && Get(cfg.value.notification, key) == Some(Decimal(chatId))
            && Get(cfg.value.channels, key) == Some(GroupedValue(reply.channel) as int)
            && cfg.value.wordlist == LoadWordlist(Lines(wordlistFile), skipComments)
  {
    RegisterRoundTrip(mode, files, command, chatId, skipComments);
  }

  /**
   * End to end, on files ready for appending under `mode` (for the code
   * as written, files that end their last line): once
   * `/register <id> <channel>` succeeded from chat `chatId`, a bot started
   * on the new files alerts that chat when a matching message by someone
   * else appears in `channel`, and — given a Telegram token — actually
   * sends it there.
   */
  lemma {:induction false} RegisteredChannelIsWatched(
    mode: AppendMode, botId: int, wordlistFile: string, files: Files, fallback: Option<string>,
    command: string, chatId: int, skipComments: bool, token: Option<string>, msg: Message, texts: Texts)
    requires ReadyForAppend(mode, files)
    requires Transition(mode, files, command, chatId, skipComments).0.Registered?
    requires Load(botId, wordlistFile, files, fallback, skipComments).Some?
    requires var (reply, after) := Transition(mode, files, command, chatId, skipComments);
             && msg.authorId != botId
             && msg.channelId == GroupedValue(reply.channel) as int
             && Matches(msg.content, LoadWordlist(Lines(wordlistFile), skipComments))
    ensures var (reply, after) := Transition(mode, files, command, chatId, skipComments);
            var loaded := Load(botId, wordlistFile, after, fallback, skipComments);
            && loaded.Some?
            && Decision(GroupedValue(reply.id) as int, Some(Decimal(chatId)), texts.channelAlert)
               in Route(loaded.value, msg, texts)
            && (Truthy(token) ==> Send(Decimal(chatId), texts.channelAlert) in Sends(loaded.value, token, msg, texts))
  {
    var (reply, after) := Transition(mode, files, command, chatId, skipComments);
    RegistrationLoads(mode, botId, wordlistFile, files, fallback, command, chatId, skipComments);
    var cfg := Load(botId, wordlistFile, after, fallback, skipComments).value;
    BoundIdAlerted(cfg, token, msg, texts, GroupedValue(reply.id) as int, Decimal(chatId));
  }

  /**
   * The same for the DM branch: a matching DM from the registered id
   * alerts the registering chat.
   */
  lemma {:induction false} RegisteredUserIsWatchedInDms(
    mode: AppendMode, botId: int, wordlistFile: string, files: Files, fallback: Option<string>,
    command: string, chatId: int, skipComments: bool, token: Option<string>, msg: Message, texts: Texts)
    requires ReadyForAppend(mode, files)
    requires Transition(mode, files, command, chatId, skipComments).0.Registered?
    requires Load(botId, wordlistFile, files, fallback, skipComments).Some?
    requires var (reply, after) := Transition(mode, files, command, chatId, skipComments);
             && msg.authorId != botId && msg.isDm
             && msg.authorId == GroupedValue(reply.id) as int
             && Matches(msg.content, LoadWordlist(Lines(wordlistFile), skipComments))
    ensures var (reply, after) := Transition(mode, files, command, chatId, skipComments);
            var loaded := Load(botId, wordlistFile, after, fallback, skipComments);
            && loaded.Some?
            && Decision(msg.authorId, Some(Decimal(chatId)), texts.dmAlert) in Route(loaded.value, msg, texts)
            && (Truthy(token) ==> Send(Decimal(chatId), texts.dmAlert) in Sends(loaded.value, token, msg, texts))
  {
    var (reply, after) := Transition(mode, files, command, chatId, skipComments);
    RegistrationLoads(mode, botId, wordlistFile, files, fallback, command, chatId, skipComments);
    var cfg := Load(botId, wordlistFile, after, fallback, skipComments).value;
    ListedUserAlerted(cfg, token, msg, texts, Decimal(chatId));
  }
}

=== FILE: delivery.dfy ===
/**
 * `send_telegram_message` up to the HTTP POST: whether a request is made,
 * and with which chat id and text. The POST itself, its status code and
 * its exceptions are outside the model.
 */
module Delivery {

  import opened Basics
  import opened Dict
  import opened Matcher
  import opened Routing

  /** Python truthiness of an optional string: present and non-empty. */
  predicate Truthy(o: Option<string>)
  {
    o.Some? && o.value != []
  }

  /** The form fields of one `sendMessage` request. */
  datatype Send = Send(chat: string, text: string)

  /** `send_telegram_message(text, chat)` with `TELEGRAM_BOT_TOKEN = token`, `TELEGRAM_CHAT_ID = fallback`. */
  function Deliver(token: Option<string>, fallback: Option<string>, chat: Option<string>, text: string)
    : (r: Option<Send>)
    ensures r.Some? <==> Truthy(token) && (Truthy(chat) || Truthy(fallback))
    ensures r.Some? ==> r.value.text == text && r.value.chat != []
    ensures r.Some? && Truthy(chat) ==> r.value.chat == chat.value
    ensures r.Some? && !Truthy(chat) ==> r.value.chat == fallback.value
  {
    if !Truthy(token) then None
    else
      var resolved := if Truthy(chat) then chat else fallback;   // `chat_id or TELEGRAM_CHAT_ID`
      if !Truthy(resolved) then None else Some(Send(resolved.value, text))
  }

  /** The requests made for a list of decisions, in order. */
  function Dispatch(token: Option<string>, fallback: Option<string>, decisions: seq<Decision>)
    : (r: seq<Send>)
    ensures |r| <= |decisions|
    ensures !Truthy(token) ==> r == []
    ensures Truthy(token) && Truthy(fallback) ==> |r| == |decisions|
    ensures forall k :: 0 <= k < |r| ==> r[k].chat != []
    ensures forall k :: 0 <= k < |r| ==>
              exists i :: 0 <= i < |decisions| && Deliver(token, fallback, decisions[i].chat, decisions[i].text) == Some(r[k])
  {
    if decisions == [] then []
    else
      var d := decisions[0];
      var first := match Deliver(token, fallback, d.chat, d.text)
                   case Some(send) => [send]
                   case None => [];
      var rest := Dispatch(token, fallback, decisions[1..]);
      assert forall i :: 0 <= i < |decisions| - 1 ==> decisions[1..][i] == decisions[i + 1];
      first + rest
  }

  /** One decision yields its delivery when that goes ahead, and no request otherwise. */
  lemma DispatchOne(token: Option<string>, fallback: Option<string>, d: Decision)
    ensures Dispatch(token, fallback, [d])
         == match Deliver(token, fallback, d.chat, d.text)
            case Some(send) => [send]
            case None => []
  {
    assert [d][1..] == [];
  }

  /** The requests for two runs of decisions are those of the first run followed by those of the second. */
  lemma {:induction false} DispatchConcat(token: Option<string>, fallback: Option<string>,
                                          a: seq<Decision>, b: seq<Decision>)
    ensures Dispatch(token, fallback, a + b) == Dispatch(token, fallback, a) + Dispatch(token, fallback, b)
  {
    if a == [] {
      assert a + b == b;
    } else {
      var t := a[1..];
      assert a + b == [a[0]] + (t + b);
      assert a == [a[0]] + t;
      DispatchConcat(token, fallback, t, b);
      DispatchCons(token, fallback, a[0], t + b);
      DispatchCons(token, fallback, a[0], t);
      PrefixAppend(Dispatch(token, fallback, a + b), Dispatch(token, fallback, [a[0]]),
                   Dispatch(token, fallback, t + b), Dispatch(token, fallback, a),
                   Dispatch(token, fallback, t), Dispatch(token, fallback, b));
    }
  }

  /** The first decision's requests come before those of the rest. */
  lemma DispatchCons(token: Option<string>, fallback: Option<string>, d: Decision, rest: seq<Decision>)
    ensures Dispatch(token, fallback, [d] + rest) == Dispatch(token, fallback, [d]) + Dispatch(token, fallback, rest)
  {
    assert ([d] + rest)[0] == d;
    assert ([d] + rest)[1..] == rest;
    assert [d][1..] == [];
  }

  /** Every decision whose delivery goes ahead shows up among the requests. */
  lemma {:induction false} DispatchIncludes(token: Option<string>, fallback: Option<string>,
                                            decisions: seq<Decision>, i: int)
    requires 0 <= i < |decisions|
    requires Deliver(token, fallback, decisions[i].chat, decisions[i].text).Some?
    ensures Deliver(token, fallback, decisions[i].chat, decisions[i].text).value
            in Dispatch(token, fallback, decisions)
  {
    if i > 0 {
      assert decisions[1..][i - 1] == decisions[i];
      DispatchIncludes(token, fallback, decisions[1..], i - 1);
    }
  }

  /**
   * Everything `on_message` ends up requesting from Telegram for one
   * message: nothing for the bot's own messages, without a token or for
   * content that matches no word, and otherwise only the two alert texts,
   * each to a non-empty chat.
   */
  function Sends(cfg: Config, token: Option<string>, msg: Message, texts: Texts): (r: seq<Send>)
    ensures msg.authorId == cfg.botId || !Truthy(token) || !Matches(msg.content, cfg.wordlist) ==> r == []
    ensures forall k :: 0 <= k < |r| ==> r[k].chat != [] && (r[k].text == texts.channelAlert || r[k].text == texts.dmAlert)
  {
    var route := Route(cfg, msg, texts);
    assert forall i :: 0 <= i < |route| ==> route[i].text == texts.channelAlert || route[i].text == texts.dmAlert;
    Dispatch(token, cfg.fallback, route)
  }

  /**
   * Where an alert for `id` goes: its mapped chat when that is non-empty,
   * otherwise `TELEGRAM_CHAT_ID`; with neither, or without a token,
   * nothing is sent. An empty mapped chat id thus falls back as well.
   */
  lemma AlertDestination(cfg: Config, token: Option<string>, id: int, text: string)
    ensures var mapped := Get(cfg.notification, id);
            var r := Deliver(token, cfg.fallback, Target(cfg, id), text);
            && (r.Some? <==> Truthy(token) && (Truthy(mapped) || Truthy(cfg.fallback)))
            && (r.Some? ==> r.value == Send(if Truthy(mapped) then mapped.value else cfg.fallback.value, text))
  {
  }

  /**
   * An id bound to the message's channel and mapped to a non-empty chat
   * gets the channel alert in that chat, whenever someone else's message
   * there matches.
   */
  lemma {:induction false} BoundIdAlerted(cfg: Config, token: Option<string>, msg: Message, texts: Texts,
                                          id: int, chat: string)
    requires UniqueKeys(cfg.channels)
    requires msg.authorId != cfg.botId && Matches(msg.content, cfg.wordlist)
    requires Get(cfg.channels, id) == Some(msg.channelId)
    requires Get(cfg.notification, id) == Some(chat) && chat != []
    ensures Decision(id, Some(chat), texts.channelAlert) in Route(cfg, msg, texts)
    ensures Truthy(token) ==> Send(chat, texts.channelAlert) in Sends(cfg, token, msg, texts)
  {
    var text := texts.channelAlert;
    var decision := Decision(id, Some(chat), text);
    var channelPart := ChannelDecisions(cfg.channels, cfg, msg, text);
    ChannelRouting(cfg.channels, cfg, msg, text);
    assert HasDecisionFor(channelPart, id);
    var i :| 0 <= i < |channelPart| && channelPart[i].subject == id;
    assert channelPart[i] == decision;
    var route := Route(cfg, msg, texts);
    assert route[i] == decision;
    if Truthy(token) {
      assert Deliver(token, cfg.fallback, decision.chat, text) == Some(Send(chat, text));
      DispatchIncludes(token, cfg.fallback, route, i);
    }
  }

  /** A listed user mapped to a non-empty chat gets the DM alert there for a matching DM. */
  lemma {:induction false} ListedUserAlerted(cfg: Config, token: Option<string>, msg: Message, texts: Texts,
                                             chat: string)
    requires msg.authorId != cfg.botId && msg.isDm && msg.authorId in cfg.dmUsers
    requires Matches(msg.content, cfg.wordlist)
    requires Get(cfg.notification, msg.authorId) == Some(chat) && chat != []
    ensures Decision(msg.authorId, Some(chat), texts.dmAlert) in Route(cfg, msg, texts)
    ensures Truthy(token) ==> Send(chat, texts.dmAlert) in Sends(cfg, token, msg, texts)
  {
    var text := texts.dmAlert;
    var decision := Decision(msg.authorId, Some(chat), text);
    var channelPart := ChannelDecisions(cfg.channels, cfg, msg, texts.channelAlert);
    var route := Route(cfg, msg, texts);
    assert route == channelPart + [decision];
    var i := |channelPart|;
    assert route[i] == decision;
    if Truthy(token) {
      assert Deliver(token, cfg.fallback, decision.chat, text) == Some(Send(chat, text));
      DispatchIncludes(token, cfg.fallback, route, i);
    }
  }
}

=== FILE: dict.dfy ===
/**
 * Python's insertion-ordered `dict` with integer keys (every map the bots
 * load is keyed by a Discord id), as a sequence of key/value pairs.
 * Assigning to a present key replaces its value in place; a new key is
 * added at the end. Iteration (`.items()`) follows the sequence.
 */
module Dict {

  import opened Basics

  type Dict<V> = seq<(int, V)>

  /** No key appears twice, which is what makes a pair sequence a `dict`. */
  predicate UniqueKeys<V>(d: Dict<V>)
  {
    forall i, j :: 0 <= i < j < |d| ==> d[i].0 != d[j].0
  }

  /** `k` is a key of `d` (Python's `k in d`). */
  predicate HasKey<V>(d: Dict<V>, k: int)
  {
    exists i :: 0 <= i < |d| && d[i].0 == k
  }

  /** Position of the first pair whose key is `k`. */
  function IndexOf<V>(d: Dict<V>, k: int): (r: Option<nat>)
    ensures r.Some? ==> r.value < |d| && d[r.value].0 == k
    ensures r.Some? ==> forall j :: 0 <= j < r.value ==> d[j].0 != k
    ensures r.None? <==> !HasKey(d, k)
  {
    if d == [] then None
    else if d[0].0 == k then Some(0)
    else
      assert forall i :: 0 < i < |d| ==> d[1..][i - 1] == d[i];
      match IndexOf(d[1..], k)
      case None => None
      case Some(i) => Some(i + 1)
  }

  /** Python's `d.get(k)`: the value paired with `k`, if any. */
  function Get<V>(d: Dict<V>, k: int): (r: Option<V>)
    ensures r.Some? <==> HasKey(d, k)
    ensures r.Some? ==> exists i :: 0 <= i < |d| && d[i] == (k, r.value)
  {
    match IndexOf(d, k)
    case Some(i) => Some(d[i].1)
    case None => None
  }

  /** Lookups depend only on the keys, position by position. */
  lemma {:induction false} IndexOfSameKeys<V>(d: Dict<V>, e: Dict<V>, k: int)
    requires |d| == |e|
    requires forall i :: 0 <= i < |d| ==> d[i].0 == e[i].0
    ensures IndexOf(d, k) == IndexOf(e, k)
  {
    if d != [] && d[0].0 != k {
      IndexOfSameKeys(d[1..], e[1..], k);
    }
  }

  function IndexOfAfterAppend<V>(d: Dict<V>, p: (int, V), k: int): Option<nat>
  {
    if HasKey(d, k) then IndexOf(d, k) else if p.0 == k then Some(|d|) else None
  }

  /** A pair added at the end is found only when no earlier pair has its key. */
  lemma {:induction false} IndexOfAppend<V>(d: Dict<V>, p: (int, V), k: int)
    ensures IndexOf(d + [p], k) == IndexOfAfterAppend(d, p, k)
  {
    if d != [] && d[0].0 != k {
      assert (d + [p])[1..] == d[1..] + [p];
      IndexOfAppend(d[1..], p, k);
      assert HasKey(d, k) <==> HasKey(d[1..], k) by {
        assert forall i :: 0 < i < |d| ==> d[1..][i - 1] == d[i];
      }
    }
  }

  /** Python's `d[k] = v`. */
  function Put<V>(d: Dict<V>, k: int, v: V): (r: Dict<V>)
    ensures Get(r, k) == Some(v)
    ensures forall k' :: k' != k ==> Get(r, k') == Get(d, k')
    ensures HasKey(d, k) ==> |r| == |d| && forall i :: 0 <= i < |d| ==> r[i].0 == d[i].0
    ensures !HasKey(d, k) ==> r == d + [(k, v)]
  {
    match IndexOf(d, k)
    case Some(i) =>
      var r := d[i := (k, v)];
      assert forall k' :: IndexOf(r, k') == IndexOf(d, k') by {
        forall k' ensures IndexOf(r, k') == IndexOf(d, k') {
          IndexOfSameKeys(r, d, k');
        }
      }
      r
    case None =>
      var r := d + [(k, v)];
      assert forall k' :: IndexOf(r, k') == IndexOfAfterAppend(d, (k, v), k') by {
        forall k' ensures IndexOf(r, k') == IndexOfAfterAppend(d, (k, v), k') {
          IndexOfAppend(d, (k, v), k');
        }
      }
      r
  }

  /** Assigning keeps the keys unique. */
  lemma PutUnique<V>(d: Dict<V>, k: int, v: V)
    requires UniqueKeys(d)
    ensures UniqueKeys(Put(d, k, v))
  {
  }
}

=== FILE: linefile.dfy ===
/**
 * Text files as the bots see them. A file is its whole content; reading
 * it line by line follows Python's universal-newline mode (`\n`, `\r` and
 * `\r\n` each end a line), and registering appends `record + "\n"` in
 * append mode.
 */
module LineFile {

  import opened Basics

  predicate IsTerminator(c: char)
  {
    c == '\n' || c == '\r'
  }

  /** A line body: text with no line terminator in it. */
  predicate IsRecord(line: string)
  {
    forall k :: 0 <= k < |line| ==> !IsTerminator(line[k])
  }

  /** The file is empty or its last line is terminated. */
  predicate EndsLine(s: string)
  {
    s == [] || IsTerminator(s[|s| - 1])
  }

  /** Index of the first line terminator in `s`, or `|s|` if there is none. */
  function FirstTerminator(s: string): (i: nat)
    ensures i <= |s|
    ensures forall k :: 0 <= k < i ==> !IsTerminator(s[k])
    ensures i < |s| ==> IsTerminator(s[i])
  {
    if s == [] || IsTerminator(s[0]) then 0 else 1 + FirstTerminator(s[1..])
  }

  /** Where the next line starts, given the terminator at `i`; `\r\n` is a single terminator. */
  function NextLineStart(s: string, i: nat): (j: nat)
    requires i < |s| && IsTerminator(s[i])
    ensures i < j <= |s|
  {
    if s[i] == '\r' && i + 1 < |s| && s[i + 1] == '\n' then i + 2 else i + 1
  }

  /**
   * The lines `for line in f` yields, without their terminators. A final
   * line without a terminator is still a line; an empty file has none.
   */
  function Lines(s: string): (r: seq<string>)
    ensures forall k :: 0 <= k < |r| ==> IsRecord(r[k])
    ensures s != [] ==> r != []
    decreases |s|
  {
    if s == [] then []
    else
      var i := FirstTerminator(s);
      if i == |s| then [s] else [s[..i]] + Lines(s[NextLineStart(s, i)..])
  }

  /** Python's `f.write(f'{record}\n')` on a file opened with mode `'a'`. */
  function AppendRecord(content: string, record: string): (r: string)
    ensures content <= r && EndsLine(r)
  {
    content + record + "\n"
  }

  /**
   * Appending that first terminates an unterminated last line, so the
   * record always lands on a line of its own.
   */
  function AppendRecordFixed(content: string, record: string): string
  {
    (if EndsLine(content) then content else content + "\n") + record + "\n"
  }

  /** A single terminated record is read back as exactly that record. */
  lemma LinesOfRecord(record: string)
    requires IsRecord(record)
    ensures Lines(record + "\n") == [record]
  {
    var s := record + "\n";
    assert FirstTerminator(s) == |record| by {
      FirstTerminatorOfRecord(record, "\n");
    }
    assert s[..|record|] == record;
    assert s[NextLineStart(s, |record|)..] == [];
  }

  /**
   * A record ended by `\n`, by `\r\n`, or by a `\r` that no `\n` follows
   * is the first line; reading goes on with what comes after the terminator.
   */
  lemma LinesFirstRecord(r: string, t: string, rest: string)
    requires IsRecord(r)
    requires t == "\n" || t == "\r\n" || (t == "\r" && (rest == [] || rest[0] != '\n'))
    ensures Lines(r + t + rest) == [r] + Lines(rest)
  {
    var s := r + t + rest;
    assert s == r + (t + rest);
    FirstTerminatorOfRecord(r, t + rest);
    assert s[..|r|] == r;
    assert NextLineStart(s, |r|) == |r| + |t|;
    assert s[|r| + |t|..] == rest;
  }

  lemma {:induction false} FirstTerminatorOfRecord(record: string, rest: string)
    requires IsRecord(record)
    requires rest != [] && IsTerminator(rest[0])
    ensures FirstTerminator(record + rest) == |record|
  {
    if record != [] {
      assert (record + rest)[1..] == record[1..] + rest;
      FirstTerminatorOfRecord(record[1..], rest);
    }
  }

  /** Text without terminators is read as that single line. */
  lemma LinesOfUnterminated(s: string)
    requires IsRecord(s) && s != []
    ensures Lines(s) == [s]
  {
    assert FirstTerminator(s) == |s| by {
      FirstTerminatorNone(s);
    }
  }

  lemma {:induction false} FirstTerminatorNone(s: string)
    requires IsRecord(s)
    ensures FirstTerminator(s) == |s|
  {
    if s != [] {
      FirstTerminatorNone(s[1..]);
    }
  }

  /**
   * Reading a concatenation splits at the join, provided the first part
   * ends its last line and the join does not fuse a `\r` with a `\n`.
   */
  lemma {:induction false} LinesAppend(a: string, b: string)
    requires EndsLine(a)
    requires !(a != [] && a[|a| - 1] == '\r' && b != [] && b[0] == '\n')
    ensures Lines(a + b) == Lines(a) + Lines(b)
    decreases |a|
  {
    if a == [] {
      assert a + b == b;
    } else {
      var i := FirstTerminator(a);
      assert i < |a|;
      var j := NextLineStart(a, i);
      var rest := a[j..];
      LinesFirstLine(a, b);
      if rest != [] {
        assert rest[|rest| - 1] == a[|a| - 1];
      }
      LinesAppend(rest, b);
      assert Lines(a) == [a[..i]] + Lines(rest);
      PrefixAppend(Lines(a + b), [a[..i]], Lines(rest + b), Lines(a), Lines(rest), Lines(b));
    }
  }

  lemma {:induction false} FirstTerminatorPrefix(a: string, b: string)
    requires FirstTerminator(a) < |a|
    ensures FirstTerminator(a + b) == FirstTerminator(a)
    decreases |a|
  {
    if !IsTerminator(a[0]) {
      assert (a + b)[1..] == a[1..] + b;
      FirstTerminatorPrefix(a[1..], b);
    }
  }

  /** Appending a record to a file that ends its last line adds exactly that line. */
  lemma AppendRecordRoundTrip(content: string, record: string)
    requires EndsLine(content)
    requires IsRecord(record) && record != []
    ensures Lines(AppendRecord(content, record)) == Lines(content) + [record]
  {
    var tail := record + "\n";
    assert AppendRecord(content, record) == content + tail;
    AppendedRecordLines(content, record, tail);
  }

  lemma AppendedRecordLines(content: string, record: string, tail: string)
    requires EndsLine(content)
    requires IsRecord(record) && record != []
    requires tail == record + "\n"
    ensures Lines(content + tail) == Lines(content) + [record]
  {
    assert tail[0] == record[0];
    LinesAppend(content, tail);
    LinesOfRecord(record);
  }

  /** Terminating an unterminated last line does not change what is read. */
  lemma {:induction false} TerminateLastLine(s: string)
    requires !EndsLine(s)
    ensures Lines(s + "\n") == Lines(s)
    decreases |s|
  {
    var t := s + "\n";
    var i := FirstTerminator(s);
    if i == |s| {
      FirstTerminatorOfRecord(s, "\n");
      assert t[..i] == s;
      assert t[NextLineStart(t, i)..] == [];
    } else {
      NextLineInside(s, i);
      LinesFirstLine(s, "\n");
      var j := NextLineStart(s, i);
      TerminateLastLine(s[j..]);
      assert Lines(s) == [s[..i]] + Lines(s[j..]);
    }
  }

  /** With the fix, every append adds exactly one line, whatever the file held before. */
  lemma AppendRecordFixedRoundTrip(content: string, record: string)
    requires IsRecord(record) && record != []
    ensures Lines(AppendRecordFixed(content, record)) == Lines(content) + [record]
  {
    if EndsLine(content) {
      AppendRecordRoundTrip(content, record);
    } else {
      TerminateLastLine(content);
      AppendRecordRoundTrip(content + "\n", record);
    }
  }

  /** `lines` with `suffix` glued onto the end of its last line. */
  function ExtendLast(lines: seq<string>, suffix: string): seq<string>
    requires lines != []
  {
    lines[..|lines| - 1] + [lines[|lines| - 1] + suffix]
  }

  /**
   * As written, appending to a file whose last line is unterminated glues
   * the record onto that line: the file gains no line at all.
   */
  lemma {:induction false} AppendRecordMerges(content: string, record: string)
    requires !EndsLine(content)
    requires IsRecord(record)
    ensures Lines(AppendRecord(content, record)) == ExtendLast(Lines(content), record)
    decreases |content|
  {
    var i := FirstTerminator(content);
    if i == |content| {
      LinesOfRecord(content + record);
      assert AppendRecord(content, record) == (content + record) + "\n";
    } else {
      var j := NextLineStart(content, i);
      AppendRecordMerges(content[j..], record);
      MergeStep(content, record, i, j);
    }
  }

  /** One unrolling of `Lines` on both sides of an append, for the first line of `content`. */
  lemma {:induction false} MergeStep(content: string, record: string, i: nat, j: nat)
    requires !EndsLine(content)
    requires i == FirstTerminator(content) < |content|
    requires j == NextLineStart(content, i)
    requires Lines(AppendRecord(content[j..], record)) == ExtendLast(Lines(content[j..]), record)
    ensures Lines(AppendRecord(content, record)) == ExtendLast(Lines(content), record)
  {
    NextLineInside(content, i);
    assert AppendRecord(content, record) == content + (record + "\n");
    LinesFirstLine(content, record + "\n");
    var rest := content[j..];
    assert rest + (record + "\n") == AppendRecord(rest, record);
    var tail := Lines(rest);
    assert Lines(content) == [content[..i]] + tail;
    ExtendLastCons(content[..i], tail, record);
  }

  /** In a file whose last line is unterminated, a terminator is never the last character. */
  lemma NextLineInside(s: string, i: nat)
    requires !EndsLine(s)
    requires i < |s| && IsTerminator(s[i])
    ensures i + 1 < |s| && NextLineStart(s, i) < |s|
  {
    assert i != |s| - 1;
    if s[i] == '\r' && s[i + 1] == '\n' {
      assert i + 1 != |s| - 1;
    }
  }

  lemma ExtendLastCons(line: string, tail: seq<string>, suffix: string)
    requires tail != []
    ensures ExtendLast([line] + tail, suffix) == [line] + ExtendLast(tail, suffix)
  {
    assert ([line] + tail)[..|tail|] == [line] + tail[..|tail| - 1];
  }

  /**
   * When the first line of `a` ends inside `a`, appending `b` leaves that
   * first line alone, unless a final `\r` of `a` would pair with a
   * leading `\n` of `b`.
   */
  lemma {:induction false} LinesFirstLine(a: string, b: string)
    requires FirstTerminator(a) < |a|
    requires !(FirstTerminator(a) == |a| - 1 && a[|a| - 1] == '\r' && b != [] && b[0] == '\n')
    ensures Lines(a + b)
         == [a[..FirstTerminator(a)]] + Lines(a[NextLineStart(a, FirstTerminator(a))..] + b)
  {
    var i := FirstTerminator(a);
    var j := NextLineStart(a, i);
    var s := a + b;
    FirstTerminatorPrefix(a, b);
    assert s[i] == a[i];
    if i + 1 < |a| {
      assert s[i + 1] == a[i + 1];
    }
    assert NextLineStart(s, i) == j;
    assert s[..i] == a[..i];
    assert s[j..] == a[j..] + b;
  }
}

=== FILE: loaders.dfy ===
/**
 * The four startup loaders and the duplicate check's re-read of
 * `dm_users.txt`. Each is the same Python loop, `for line in f`, over the
 * file's lines in order; what differs is what one line contributes. So a
 * loader is a classifier for single lines (`Item`) followed by a fold over
 * the classified lines. `skipComments` selects the variant:
 * telegram_register_bot.py passes over lines whose stripped form starts
 * with `#`; bot.py does not.
 */
module Loaders {

  import opened Basics
  import opened Text
  import opened Numbers
  import opened Dict

  /** What one line contributes: nothing, a crash of `int()`, or a value. */
  datatype Item<T> = Skip | Bad | Keep(value: T)

  /** The result of a loader: its value, or the first line on which `int()` raised. */
  datatype Loaded<T> = Loaded(value: T) | Malformed(line: nat)

  /** Every line, classified on its own. */
  function Classify<T>(lines: seq<string>, classify: string -> Item<T>): (r: seq<Item<T>>)
    ensures |r| == |lines|
    ensures forall k :: 0 <= k < |lines| ==> r[k] == classify(lines[k])
  {
    seq(|lines|, k requires 0 <= k < |lines| => classify(lines[k]))
  }

  /** Classifying a file with one more line adds that line's item at the end. */
  lemma ClassifyAppend<T>(lines: seq<string>, line: string, classify: string -> Item<T>)
    ensures Classify(lines + [line], classify) == Classify(lines, classify) + [classify(line)]
  {
  }

  /** Classifying a concatenation classifies each part. */
  lemma {:induction false} ClassifyConcat<T>(a: seq<string>, b: seq<string>, classify: string -> Item<T>)
    ensures Classify(a + b, classify) == Classify(a, classify) + Classify(b, classify)
  {
  }

  // ---------------------------------------------------------------- the two folds

  /** A list comprehension over the items: kept values in order; the first `Bad` aborts. */
  function Collect<T>(items: seq<Item<T>>): (r: Loaded<seq<T>>)
    ensures r.Loaded? <==> forall k :: 0 <= k < |items| ==> !items[k].Bad?
    ensures r.Malformed? ==> r.line < |items| && items[r.line].Bad?
    ensures r.Malformed? ==> forall j :: 0 <= j < r.line ==> !items[j].Bad?
    ensures r.Loaded? ==> |r.value| <= |items|
  {
    if items == [] then Loaded([])
    else
      var init := items[..|items| - 1];
      assert forall k :: 0 <= k < |init| ==> init[k] == items[k];
      match Collect(init)
      case Malformed(i) => Malformed(i)
      case Loaded(xs) =>
        match items[|items| - 1]
        case Skip => Loaded(xs)
        case Bad => Malformed(|items| - 1)
        case Keep(x) => Loaded(xs + [x])
  }

  /** One more kept item adds its value at the end, unless an earlier line already failed. */
  lemma CollectAppendKeep<T>(items: seq<Item<T>>, x: T)
    ensures Collect(items + [Keep(x)])
         == if Collect(items).Loaded? then Loaded(Collect(items).value + [x]) else Collect(items)
  {
    assert (items + [Keep(x)])[..|items|] == items;
  }

  /** A value is collected exactly when some item keeps it. */
  lemma {:induction false} CollectMembership<T>(items: seq<Item<T>>, x: T)
    requires Collect(items).Loaded?
    ensures x in Collect(items).value <==> exists k :: 0 <= k < |items| && items[k] == Keep(x)
  {
    if items != [] {
      var init := items[..|items| - 1];
      assert forall k :: 0 <= k < |init| ==> init[k] == items[k];
      CollectMembership(init, x);
    }
  }

  /** One iteration of the map-loading loop, on the item at index `index`. */
  function BindStep<V>(acc: Loaded<Dict<V>>, item: Item<(int, V)>, index: nat): Loaded<Dict<V>>
  {
    match acc
    case Malformed(i) => Malformed(i)
    case Loaded(d) =>
      match item
      case Skip => Loaded(d)
      case Bad => Malformed(index)
      case Keep(p) => Loaded(Put(d, p.0, p.1))
  }

  lemma BindStepUnique<V>(acc: Loaded<Dict<V>>, item: Item<(int, V)>, index: nat)
    requires acc.Loaded? ==> UniqueKeys(acc.value)
    ensures BindStep(acc, item, index).Loaded? ==> UniqueKeys(BindStep(acc, item, index).value)
  {
    if acc.Loaded? && item.Keep? {
      PutUnique(acc.value, item.value.0, item.value.1);
    }
  }

  /** A `dict` filled by `mapping[key] = value` for each kept pair; the first `Bad` aborts. */
  function BindAll<V>(items: seq<Item<(int, V)>>): (r: Loaded<Dict<V>>)
    ensures r.Loaded? <==> forall k :: 0 <= k < |items| ==> !items[k].Bad?
    ensures r.Malformed? ==> r.line < |items| && items[r.line].Bad?
    ensures r.Malformed? ==> forall j :: 0 <= j < r.line ==> !items[j].Bad?
    ensures r.Loaded? ==> UniqueKeys(r.value)
  {
    if items == [] then Loaded([])
    else
      var init := items[..|items| - 1];
      assert forall k :: 0 <= k < |init| ==> init[k] == items[k];
      var prev := BindAll(init);
      BindStepUnique(prev, items[|items| - 1], |items| - 1);
      BindStep(prev, items[|items| - 1], |items| - 1)
  }

  /** Loading a file with one more line is one more step of the loop. */
  lemma BindAllAppend<V>(items: seq<Item<(int, V)>>, item: Item<(int, V)>)
    ensures BindAll(items + [item]) == BindStep(BindAll(items), item, |items|)
  {
    assert (items + [item])[..|items|] == items;
  }

  /** Item `k` binds `key` to some value. */
  predicate BindsKey<V>(item: Item<(int, V)>, key: int)
  {
    item.Keep? && item.value.0 == key
  }

  /** The last item that binds a key decides its value. */
  lemma {:induction false} LastBindingWins<V>(items: seq<Item<(int, V)>>, k: int, key: int, value: V)
    requires BindAll(items).Loaded?
    requires 0 <= k < |items| && items[k] == Keep((key, value))
    requires forall j :: k < j < |items| ==> !BindsKey(items[j], key)
    ensures Get(BindAll(items).value, key) == Some(value)
  {
    var init := items[..|items| - 1];
    assert forall j :: 0 <= j < |init| ==> init[j] == items[j];
    if k < |items| - 1 {
      LastBindingWins(init, k, key, value);
    }
  }

  /** A key is absent exactly when no item binds it. */
  lemma {:induction false} UnboundKey<V>(items: seq<Item<(int, V)>>, key: int)
    requires BindAll(items).Loaded?
    ensures Get(BindAll(items).value, key).None? <==> forall k :: 0 <= k < |items| ==> !BindsKey(items[k], key)
  {
    if items != [] {
      var init := items[..|items| - 1];
      assert forall j :: 0 <= j < |init| ==> init[j] == items[j];
      UnboundKey(init, key);
    }
  }

  /** A `Skip` item can be dropped from anywhere: the load succeeds or fails alike, with the same map. */
  lemma {:induction false} SkipIsInert<V>(before: seq<Item<(int, V)>>, after: seq<Item<(int, V)>>)
    ensures BindAll(before + [Skip] + after).Loaded? == BindAll(before + after).Loaded?
    ensures BindAll(before + after).Loaded? ==> BindAll(before + [Skip] + after).value == BindAll(before + after).value
    decreases |after|
  {
    if after == [] {
      assert before + [Skip] + after == before + [Skip];
      BindAllAppend(before, Skip);
      assert before + after == before;
    } else {
      var a' := after[..|after| - 1];
      var x := after[|after| - 1];
      SkipIsInert(before, a');
      var left := before + [Skip] + a';
      var right := before + a';
      assert after == a' + [x];
      assert before + [Skip] + after == left + [x];
      assert before + after == right + [x];
      BindAllAppend(left, x);
      BindAllAppend(right, x);
      BindStepAgrees(BindAll(left), BindAll(right), x, |left|, |right|);
    }
  }

  /** Two loads that agree up to the line number of a failure still agree after one more step. */
  lemma BindStepAgrees<V>(l: Loaded<Dict<V>>, r: Loaded<Dict<V>>, item: Item<(int, V)>, i: nat, j: nat)
    requires l.Loaded? == r.Loaded? && (r.Loaded? ==> l.value == r.value)
    ensures BindStep(l, item, i).Loaded? == BindStep(r, item, j).Loaded?
    ensures BindStep(r, item, j).Loaded? ==> BindStep(l, item, i).value == BindStep(r, item, j).value
  {
  }

  // ---------------------------------------------------------------- the loaders

  /** A line every loader of the variant passes over: blank, or a `#` comment. */
  predicate Ignored(line: string, skipComments: bool)
  {
    var t := Strip(line);
    t == [] || (skipComments && StartsWith(t, "#"))
  }

  function WordItem(line: string, skipComments: bool): Item<string>
  {
    if Ignored(line, skipComments) then Skip else Keep(Lower(Strip(line)))
  }

  /** `load_wordlist`: the stripped, lower-cased, non-ignored lines, in file order. */
  function LoadWordlist(lines: seq<string>, skipComments: bool): (r: seq<string>)
    ensures |r| <= |lines|
    ensures forall k :: 0 <= k < |r| ==> r[k] != [] && IsLowerCase(r[k])
  {
    var items := Classify(lines, l => WordItem(l, skipComments));
    var words := Collect(items).value;
    assert forall k :: 0 <= k < |words| ==> words[k] != [] && IsLowerCase(words[k]) by {
      forall k | 0 <= k < |words| ensures words[k] != [] && IsLowerCase(words[k]) {
        CollectMembership(items, words[k]);
      }
    }
    words
  }

  /** A word is in the list exactly when some kept line yields it; every word is non-empty lower case. */
  lemma WordlistMembership(lines: seq<string>, skipComments: bool, w: string)
    ensures w in LoadWordlist(lines, skipComments)
        <==> exists k :: 0 <= k < |lines| && !Ignored(lines[k], skipComments) && w == Lower(Strip(lines[k]))
    ensures w in LoadWordlist(lines, skipComments) ==> w != [] && IsLowerCase(w)
  {
    var items := Classify(lines, l => WordItem(l, skipComments));
    CollectMembership(items, w);
  }

  /** Reading one more line appends its stripped, lower-cased form unless it is skipped: file order is kept. */
  lemma WordlistAppend(lines: seq<string>, line: string, skipComments: bool)
    ensures LoadWordlist(lines + [line], skipComments)
         == LoadWordlist(lines, skipComments) + (if Ignored(line, skipComments) then [] else [Lower(Strip(line))])
  {
    var f := l => WordItem(l, skipComments);
    var items := Classify(lines, f);
    ClassifyAppend(lines, line, f);
    var longer := items + [f(line)];
    assert longer[..|items|] == items;
    assert forall k :: 0 <= k < |items| ==> !items[k].Bad?;
  }

  function DmItem(line: string, skipComments: bool): Item<int>
  {
    if Ignored(line, skipComments) then Skip
    else match ParseInt(Strip(line))
      case None => Bad
      case Some(id) => Keep(id)
  }

  /** `load_dm_users`: `int(line.strip())` of every kept line, in file order. */
  function LoadDmUsers(lines: seq<string>, skipComments: bool): (r: Loaded<seq<int>>)
    ensures r.Malformed? ==> && r.line < |lines|
                             && !Ignored(lines[r.line], skipComments)
                             && ParseInt(Strip(lines[r.line])).None?
    ensures r.Loaded? <==> forall k :: 0 <= k < |lines| && !Ignored(lines[k], skipComments)
                                       ==> ParseInt(Strip(lines[k])).Some?
  {
    Collect(Classify(lines, l => DmItem(l, skipComments)))
  }

  /** An id is in the loaded list exactly when some kept line parses to it. */
  lemma DmUsersMembership(lines: seq<string>, skipComments: bool, id: int)
    requires LoadDmUsers(lines, skipComments).Loaded?
    ensures id in LoadDmUsers(lines, skipComments).value
        <==> exists k :: 0 <= k < |lines| && !Ignored(lines[k], skipComments)
                         && ParseInt(Strip(lines[k])) == Some(id)
  {
    var items := Classify(lines, l => DmItem(l, skipComments));
    CollectMembership(items, id);
    forall k | 0 <= k < |lines|
      ensures items[k] == Keep(id) <==> !Ignored(lines[k], skipComments) && ParseInt(Strip(lines[k])) == Some(id)
    {
    }
  }

  function StoredItem(line: string, skipComments: bool): Item<string>
  {
    if Ignored(line, skipComments) then Skip else Keep(Strip(line))
  }

  /**
   * The duplicate check in `register_user`: the stripped kept lines of
   * `dm_users.txt`, compared as strings, not as numbers.
   */
  function StoredIds(lines: seq<string>, skipComments: bool): (r: seq<string>)
    ensures |r| <= |lines|
    ensures forall k :: 0 <= k < |r| ==> Trimmed(r[k]) && !Ignored(r[k], skipComments)
  {
    var items := Classify(lines, l => StoredItem(l, skipComments));
    var ids := Collect(items).value;
    assert forall k :: 0 <= k < |ids| ==> Trimmed(ids[k]) && !Ignored(ids[k], skipComments) by {
      forall k | 0 <= k < |ids| ensures Trimmed(ids[k]) && !Ignored(ids[k], skipComments) {
        CollectMembership(items, ids[k]);
      }
    }
    ids
  }

  /** A string is a stored id exactly when some kept line strips to it. */
  lemma StoredIdsMembership(lines: seq<string>, skipComments: bool, s: string)
    ensures s in StoredIds(lines, skipComments)
        <==> exists k :: 0 <= k < |lines| && !Ignored(lines[k], skipComments) && s == Strip(lines[k])
  {
    CollectMembership(Classify(lines, l => StoredItem(l, skipComments)), s);
  }

  /**
   * One iteration of the loop in `load_notification_map` and
   * `load_server_channel_map`: strip, pass over the line unless it has a
   * `:`, split at the first `:`, convert the key with `int()` and the
   * value with `parseValue`.
   */
  function EntryItem<V>(line: string, skipComments: bool, parseValue: string -> Option<V>): Item<(int, V)>
  {
    var t := Strip(line);
    if Ignored(line, skipComments) || ':' !in t then Skip
    else
      var halves := SplitFirst(t, ':');
      match (parseValue(halves.after), ParseInt(halves.before))
      case (Some(value), Some(key)) => Keep((key, value))
      case _ => Bad
  }

  /** A kept `key:value` line whose key or value `int()` rejects: the loop raises on it. */
  predicate Rejected<V>(line: string, skipComments: bool, parseValue: string -> Option<V>)
  {
    var t := Strip(line);
    && !Ignored(line, skipComments) && ':' in t
    && (ParseInt(SplitFirst(t, ':').before).None? || parseValue(SplitFirst(t, ':').after).None?)
  }

  /**
   * The loop shared by `load_notification_map` and `load_server_channel_map`:
   * the map loads exactly when no line is rejected, otherwise the first
   * rejected line is where the script dies; a loaded map has each key once.
   */
  function LoadMap<V>(lines: seq<string>, skipComments: bool, parseValue: string -> Option<V>)
    : (r: Loaded<Dict<V>>)
    ensures r.Loaded? <==> forall k :: 0 <= k < |lines| ==> !Rejected(lines[k], skipComments, parseValue)
    ensures r.Malformed? ==> && r.line < |lines| && Rejected(lines[r.line], skipComments, parseValue)
                             && forall j :: 0 <= j < r.line ==> !Rejected(lines[j], skipComments, parseValue)
    ensures r.Loaded? ==> UniqueKeys(r.value)
  {
    var items := Classify(lines, l => EntryItem(l, skipComments, parseValue));
    assert forall k :: 0 <= k < |lines| ==> (items[k].Bad? <==> Rejected(lines[k], skipComments, parseValue));
    BindAll(items)
  }

  /** The notification map keeps the text after the first `:` verbatim. */
  function KeepText(s: string): Option<string>
  {
    Some(s)
  }

  /** `load_notification_map`: Discord id to Telegram chat id text. */
  function LoadNotificationMap(lines: seq<string>, skipComments: bool): Loaded<Dict<string>>
  {
    LoadMap(lines, skipComments, KeepText)
  }

  /** `load_server_channel_map`: Discord id to channel id, both through `int()`. */
  function LoadServerChannelMap(lines: seq<string>, skipComments: bool): Loaded<Dict<int>>
  {
    LoadMap(lines, skipComments, ParseInt)
  }

  /** No line after index `k` binds `key`. */
  predicate NoLaterBinding<V>(lines: seq<string>, skipComments: bool, parseValue: string -> Option<V>,
                              k: int, key: int)
  {
    forall j :: 0 <= k < j < |lines| ==> !BindsKey(EntryItem(lines[j], skipComments, parseValue), key)
  }

  /** Last line wins: the last line that binds a key decides its value. */
  lemma LastLineWins<V>(lines: seq<string>, skipComments: bool, parseValue: string -> Option<V>,
                        k: int, key: int, value: V)
    requires LoadMap(lines, skipComments, parseValue).Loaded?
    requires 0 <= k < |lines|
    requires EntryItem(lines[k], skipComments, parseValue) == Keep((key, value))
    requires NoLaterBinding(lines, skipComments, parseValue, k, key)
    ensures Get(LoadMap(lines, skipComments, parseValue).value, key) == Some(value)
  {
    LastBindingWins(Classify(lines, l => EntryItem(l, skipComments, parseValue)), k, key, value);
  }

  /** A key is absent from the loaded map exactly when no line binds it. */
  lemma AbsentKey<V>(lines: seq<string>, skipComments: bool, parseValue: string -> Option<V>, key: int)
    requires LoadMap(lines, skipComments, parseValue).Loaded?
    ensures Get(LoadMap(lines, skipComments, parseValue).value, key).None?
        <==> forall k :: 0 <= k < |lines| ==> !BindsKey(EntryItem(lines[k], skipComments, parseValue), key)
  {
    UnboundKey(Classify(lines, l => EntryItem(l, skipComments, parseValue)), key);
  }

  /**
   * Blank lines, comments and lines without `:` contribute nothing,
   * wherever they are: the load succeeds or fails alike, with the same map.
   */
  lemma SkippedLineIsInert<V>(before: seq<string>, line: string, after: seq<string>,
                              skipComments: bool, parseValue: string -> Option<V>)
    requires EntryItem(line, skipComments, parseValue).Skip?
    ensures LoadMap(before + [line] + after, skipComments, parseValue).Loaded?
         == LoadMap(before + after, skipComments, parseValue).Loaded?
    ensures LoadMap(before + after, skipComments, parseValue).Loaded?
            ==> (LoadMap(before + [line] + after, skipComments, parseValue).value
                 == LoadMap(before + after, skipComments, parseValue).value)
  {
    var f := l => EntryItem(l, skipComments, parseValue);
    ClassifyConcat(before + [line], after, f);
    ClassifyConcat(before, [line], f);
    ClassifyConcat(before, after, f);
    assert Classify([line], f) == [Skip];
    SkipIsInert(Classify(before, f), Classify(after, f));
  }

  /**
   * A kept `key:value` line whose key `int()` rejects, or whose value the
   * map's parser rejects, makes the whole load fail, at that line or at an
   * earlier bad one.
   */
  lemma BadLineAborts<V>(lines: seq<string>, skipComments: bool, parseValue: string -> Option<V>, k: int)
    requires 0 <= k < |lines|
    requires !Ignored(lines[k], skipComments) && ':' in Strip(lines[k])
    requires var halves := SplitFirst(Strip(lines[k]), ':');
             ParseInt(halves.before).None? || parseValue(halves.after).None?
    ensures LoadMap(lines, skipComments, parseValue).Malformed?
    ensures LoadMap(lines, skipComments, parseValue).line <= k
  {
    var items := Classify(lines, l => EntryItem(l, skipComments, parseValue));
    assert items[k].Bad?;
  }

  /** A line without `:` binds nothing. */
  lemma NoColonSkipped<V>(line: string, skipComments: bool, parseValue: string -> Option<V>)
    requires ':' !in Strip(line)
    ensures EntryItem(line, skipComments, parseValue).Skip?
  {
  }
}

=== FILE: matcher.dfy ===
/** The captcha keyword test, `any(word in message.content.lower() for word in wordlist)`. */
module Matcher {

  import opened Text

  /** Some word of `words` occurs in `text`, checked word by word like Python's `any`. */
  predicate AnyContained(text: string, words: seq<string>)
  {
    words != [] && (Contains(text, words[0]) || AnyContained(text, words[1..]))
  }

  /** `any(word in content.lower() for word in wordlist)`: some word is a substring of the lower-cased content. */
  predicate Matches(content: string, wordlist: seq<string>)
    ensures Matches(content, wordlist) <==> exists k :: 0 <= k < |wordlist| && Contains(Lower(content), wordlist[k])
  {
    var text := Lower(content);
    AnyContainedIff(text, wordlist);
    assert forall k :: 0 <= k < |wordlist| ==> (Contains(text, wordlist[k]) <==> OccursIn(text, wordlist[k])) by {
      forall k | 0 <= k < |wordlist| ensures Contains(text, wordlist[k]) <==> OccursIn(text, wordlist[k]) {
        ContainsIff(text, wordlist[k]);
      }
    }
    AnyContained(text, wordlist)
  }

  /** `word` occurs somewhere in `text`. */
  ghost predicate OccursIn(text: string, word: string)
  {
    exists i :: OccursAt(text, word, i)
  }

  /**
   * The message matches exactly when some wordlist entry occurs in its
   * lower-cased content; in particular an empty wordlist never matches.
   */
  lemma {:induction false} MatchesIff(content: string, wordlist: seq<string>)
    ensures Matches(content, wordlist)
        <==> exists k :: 0 <= k < |wordlist| && OccursIn(Lower(content), wordlist[k])
    ensures wordlist == [] ==> !Matches(content, wordlist)
  {
    AnyContainedIff(Lower(content), wordlist);
  }

  lemma {:induction false} AnyContainedIff(text: string, words: seq<string>)
    ensures AnyContained(text, words) <==> exists k :: 0 <= k < |words| && OccursIn(text, words[k])
  {
    if words != [] {
      AnyContainedIff(text, words[1..]);
      ContainsIff(text, words[0]);
      assert forall k :: 0 < k < |words| ==> words[1..][k - 1] == words[k];
      if exists k :: 0 <= k < |words| && OccursIn(text, words[k]) {
        var k :| 0 <= k < |words| && OccursIn(text, words[k]);
        if k > 0 {
          assert OccursIn(text, words[1..][k - 1]);
        }
      }
    }
  }

  /**
   * Case does not matter: a text containing a trigger word in any mix of
   * upper and lower case matches, as long as the list holds the word in
   * lower case (which the loader guarantees).
   */
  lemma TriggerInAnyCase(content: string, wordlist: seq<string>, k: int, written: string)
    requires 0 <= k < |wordlist|
    requires Lower(written) == wordlist[k]
    requires Contains(content, written)
    ensures Matches(content, wordlist)
  {
    ContainsLower(content, written);
    ContainsIff(Lower(content), wordlist[k]);
    MatchesIff(content, wordlist);
  }

  /** Lower-casing the content first does not change the verdict. */
  lemma {:induction false} MatchesIgnoresCase(content: string, wordlist: seq<string>)
    ensures Matches(Lower(content), wordlist) == Matches(content, wordlist)
  {
    LowerOfLowerCase(Lower(content));
  }
}

=== FILE: numbers.dfy ===
/**
 * Decimal integers as the bots read and write them: Python's `int(text)`
 * (base 10) when loading the id files, and `str(n)` / f-string formatting
 * of the Telegram chat id when registering.
 */
module Numbers {

  import opened Basics
  import opened Text

  function DigitValue(c: char): (d: nat)
    requires IsDigit(c)
    ensures d < 10
  {
    c as int - '0' as int
  }

  function DigitChar(d: nat): (c: char)
    requires d < 10
    ensures IsDigit(c) && DigitValue(c) == d
  {
    ('0' as int + d) as char
  }

  /**
   * The digit part accepted by `int()`: ASCII digits, where a single `_`
   * may separate two digits (`1_000`), never leading, trailing or doubled.
   */
  predicate IsGroupedDigits(s: string)
  {
    && |s| > 0
    && IsDigit(s[0])
    && IsDigit(s[|s| - 1])
    && DigitsOrUnderscores(s)
    && forall k :: 0 < k < |s| - 1 && s[k] == '_' ==> IsDigit(s[k - 1]) && IsDigit(s[k + 1])
  }

  predicate DigitsOrUnderscores(s: string)
  {
    forall k :: 0 <= k < |s| ==> IsDigit(s[k]) || s[k] == '_'
  }

  /** Base-10 value of `s`, underscores ignored. */
  function GroupedValue(s: string): nat
    requires DigitsOrUnderscores(s)
  {
    if s == [] then 0
    else if s[|s| - 1] == '_' then GroupedValue(s[..|s| - 1])
    else 10 * GroupedValue(s[..|s| - 1]) + DigitValue(s[|s| - 1])
  }

  /**
   * Python's `int(s)`: surrounding whitespace is ignored, an optional sign
   * is allowed, and anything else that is not grouped digits is a
   * `ValueError`, modelled as `None`.
   */
  function ParseInt(s: string): (r: Option<int>)
    ensures r.Some? ==> exists k :: 0 <= k < |s| && IsDigit(s[k])
    ensures r.Some? ==> Strip(s) != []
    ensures r.Some? ==> forall k :: 0 <= k < |Strip(s)| ==>
              IsDigit(Strip(s)[k]) || Strip(s)[k] == '_' || (k == 0 && (Strip(s)[k] == '+' || Strip(s)[k] == '-'))
    ensures IsDigits(Strip(s)) ==> r == Some(GroupedValue(Strip(s)) as int)
  {
    var t := Strip(s);
    assert IsDigits(t) ==> IsGroupedDigits(t) && t[0] != '+' && t[0] != '-' by {
      if IsDigits(t) { DigitsAreGrouped(t); }
    }
    if t != [] && (t[0] == '+' || t[0] == '-') then
      var body := t[1..];
      if IsGroupedDigits(body) then
        var magnitude: int := GroupedValue(body);
        Some(if t[0] == '-' then -magnitude else magnitude)
      else None
    else if IsGroupedDigits(t) then
      Some(GroupedValue(t) as int)
    else None
  }

  /** `str(n)` for a natural number: digits, no leading zero. */
  function NatDecimal(n: nat): (r: string)
    ensures IsDigits(r)
    ensures r[0] == '0' ==> n == 0
    ensures GroupedValue(r) == n
  {
    if n < 10 then [DigitChar(n)]
    else
      var r := NatDecimal(n / 10) + [DigitChar(n % 10)];
      assert r[..|r| - 1] == NatDecimal(n / 10);
      r
  }

  /** `str(n)`: a minus sign for negative numbers, then the digits of `|n|`. */
  function Decimal(n: int): (r: string)
    ensures r != [] && Trimmed(r)
    ensures forall k :: 0 <= k < |r| ==> IsDigit(r[k]) || (k == 0 && r[k] == '-')
  {
    if n < 0 then "-" + NatDecimal(-n) else NatDecimal(n)
  }

  /** Every ASCII digit string (what `isdigit()` accepts) reads back as its value. */
  lemma ParseDigits(s: string)
    requires IsDigits(s)
    ensures ParseInt(s) == Some(GroupedValue(s))
  {
    DigitsAreGrouped(s);
    assert Strip(s) == s;
  }

  /** A plain digit string is trimmed, unsigned and validly grouped. */
  lemma DigitsAreGrouped(s: string)
    requires IsDigits(s)
    ensures Trimmed(s) && s[0] != '+' && s[0] != '-'
    ensures IsGroupedDigits(s)
  {
    assert IsDigit(s[0]) && IsDigit(s[|s| - 1]);
  }

  /** `int(str(n)) == n`: reading back the decimal text of any integer gives the integer. */
  lemma DecimalRoundTrip(n: int)
    ensures ParseInt(Decimal(n)) == Some(n)
  {
    if n < 0 {
      var digits := NatDecimal(-n);
      var t := "-" + digits;
      assert Strip(t) == t;
      assert t[1..] == digits;
      DigitsAreGrouped(digits);
    } else {
      ParseDigits(NatDecimal(n));
    }
  }
}

=== FILE: registration.dfy ===
/**
 * `register_user`, the Telegram `/register <discord_id> <channel_id>`
 * handler, as a transition on the three files it touches. The handler
 * reads `dm_users.txt` for the duplicate check and, on success, appends
 * one record to each file; the in-memory maps of the running bot are not
 * updated.
 */
module Registration {

  import opened Basics
  import opened Text
  import opened Numbers
  import opened LineFile
  import opened Dict
  import opened Loaders

  /** The reply sent back with `reply_to`. */
  datatype Reply =
    | Usage                                       // fewer than three tokens
    | Invalid                                     // an id that is not all digits
    | AlreadyRegistered(id: string)
    | Registered(id: string, channel: string)

  datatype FileName = DmUsersFile | NotificationMapFile | ServerChannelsFile

  /** One `f.write(f'{record}\n')` on a file opened for appending. */
  datatype Append = Append(file: FileName, record: string)

  datatype Outcome = Outcome(reply: Reply, appends: seq<Append>)

  /** The contents of `dm_users.txt`, `notification_map.txt` and `server_channels.txt`. */
  datatype Files = Files(dmUsers: string, notificationMap: string, serverChannels: string)

  /**
   * The handler's decision on the whitespace-separated words of the
   * command (`args = message.text.split()`): `chatId` is
   * `message.chat.id`, `dmUsers` the current content of `dm_users.txt`.
   */
  function Decide(dmUsers: string, args: seq<string>, chatId: int, skipComments: bool): (o: Outcome)
    ensures o.appends != [] <==> o.reply.Registered?
    ensures |args| < 3 <==> o.reply == Usage
    ensures o.reply == Invalid <==> |args| >= 3 && !(IsDigits(args[1]) && IsDigits(args[2]))
    ensures o.reply.AlreadyRegistered? ==> && o.reply.id == args[1]
                                           && IsDigits(args[1]) && IsDigits(args[2])
                                           && o.reply.id in StoredIds(Lines(dmUsers), skipComments)
    ensures |args| >= 3 && IsDigits(args[1]) && IsDigits(args[2])
            ==> (o.reply.AlreadyRegistered? <==> args[1] in StoredIds(Lines(dmUsers), skipComments))
    ensures |args| >= 3 && IsDigits(args[1]) && IsDigits(args[2])
            && args[1] !in StoredIds(Lines(dmUsers), skipComments)
            ==> o.reply == Registered(args[1], args[2])
    ensures o.reply.Registered? ==> && o.reply.id == args[1]
                                    && o.reply.channel == args[2]
                                    && IsDigits(o.reply.id) && IsDigits(o.reply.channel)
                                    && o.reply.id !in StoredIds(Lines(dmUsers), skipComments)
    ensures o.reply.Registered? ==> o.appends == [
              Append(DmUsersFile, o.reply.id),
              Append(NotificationMapFile, o.reply.id + ":" + Decimal(chatId)),
              Append(ServerChannelsFile, o.reply.id + ":" + o.reply.channel)]
  {
    if |args| < 3 then Outcome(Usage, [])
    else
      var id := args[1];
      var channel := args[2];
      if !IsDigits(id) || !IsDigits(channel) then Outcome(Invalid, [])
      else if id in StoredIds(Lines(dmUsers), skipComments) then Outcome(AlreadyRegistered(id), [])
      else Outcome(Registered(id, channel), [
        Append(DmUsersFile, id),                                 // add_dm_user
        Append(NotificationMapFile, id + ":" + Decimal(chatId)),  // add_notification_mapping
        Append(ServerChannelsFile, id + ":" + channel)])
  }

  /** Only the length (at least three) and the second and third words decide. */
  lemma {:induction false} DecideReadsTwoWords(dmUsers: string, a: seq<string>, b: seq<string>, chatId: int,
                                               skipComments: bool)
    requires |a| >= 3 && |b| >= 3 && a[1] == b[1] && a[2] == b[2]
    ensures Decide(dmUsers, a, chatId, skipComments) == Decide(dmUsers, b, chatId, skipComments)
  {
  }

  /**
   * `register_user` on the text `command`, e.g. `/register 123 456`: a
   * success registers the second and third whitespace-separated words.
   */
  function Register(dmUsers: string, command: string, chatId: int, skipComments: bool): (o: Outcome)
    ensures o.reply == Usage <==> |Tokens(command)| < 3
    ensures o.reply.Registered? ==> && |Tokens(command)| >= 3
                                    && o.reply == Registered(Tokens(command)[1], Tokens(command)[2])
    ensures o.reply.Registered? ==> o.reply.id !in StoredIds(Lines(dmUsers), skipComments)
  {
    Decide(dmUsers, Tokens(command), chatId, skipComments)
  }

  /** How a record is added to a file: as the source does it, or terminating the last line first. */
  datatype AppendMode = AsWritten | TerminateFirst

  function AppendTo(mode: AppendMode, content: string, record: string): string
  {
    match mode
    case AsWritten => AppendRecord(content, record)
    case TerminateFirst => AppendRecordFixed(content, record)
  }

  function ApplyAppend(mode: AppendMode, files: Files, a: Append): Files
  {
    match a.file
    case DmUsersFile => files.(dmUsers := AppendTo(mode, files.dmUsers, a.record))
    case NotificationMapFile => files.(notificationMap := AppendTo(mode, files.notificationMap, a.record))
    case ServerChannelsFile => files.(serverChannels := AppendTo(mode, files.serverChannels, a.record))
  }

  /** The appends, performed in order. */
  function ApplyAll(mode: AppendMode, files: Files, appends: seq<Append>): Files
    decreases |appends|
  {
    if appends == [] then files else ApplyAll(mode, ApplyAppend(mode, files, appends[0]), appends[1..])
  }

  /** Each file's old content is a prefix of its new content. */
  predicate Extends(before: Files, after: Files)
  {
    && before.dmUsers <= after.dmUsers
    && before.notificationMap <= after.notificationMap
    && before.serverChannels <= after.serverChannels
  }

  /** Appending never rewrites what a file already holds. */
  lemma {:induction false} ApplyAllExtends(mode: AppendMode, files: Files, appends: seq<Append>)
    ensures Extends(files, ApplyAll(mode, files, appends))
    decreases |appends|
  {
    if appends != [] {
      var next := ApplyAppend(mode, files, appends[0]);
      ApplyAllExtends(mode, next, appends[1..]);
    }
  }

  /**
   * The whole handler: the reply and the files afterwards. A rejection
   * leaves every file as it was; a success only adds text at the ends of
   * files, and always to all three.
   */
  function Transition(mode: AppendMode, files: Files, command: string, chatId: int, skipComments: bool)
    : (r: (Reply, Files))
    ensures !r.0.Registered? ==> r.1 == files
    ensures Extends(files, r.1)
    ensures r.0.Registered? ==> && |files.dmUsers| < |r.1.dmUsers|
                                && |files.notificationMap| < |r.1.notificationMap|
                                && |files.serverChannels| < |r.1.serverChannels|
  {
    var o := Register(files.dmUsers, command, chatId, skipComments);
    ApplyAllExtends(mode, files, o.appends);
    var three := if o.reply.Registered?
                 then ApplyAppend(mode, ApplyAppend(mode, ApplyAppend(mode, files, o.appends[0]), o.appends[1]),
                                  o.appends[2])
                 else files;
    assert o.reply.Registered? ==> ApplyAll(mode, files, o.appends) == three by {
      if o.reply.Registered? {
        ApplyThree(mode, files, o.appends[0], o.appends[1], o.appends[2]);
      }
    }
    (o.reply, ApplyAll(mode, files, o.appends))
  }

  /** Each file, with its line terminated when `mode` asks for it, can take a record cleanly. */
  predicate ReadyForAppend(mode: AppendMode, files: Files)
  {
    mode == TerminateFirst
    || (EndsLine(files.dmUsers) && EndsLine(files.notificationMap) && EndsLine(files.serverChannels))
  }

  /** Appending one record under a `mode` the file is ready for adds exactly that line. */
  lemma AppendToAddsLine(mode: AppendMode, content: string, record: string)
    requires mode == TerminateFirst || EndsLine(content)
    requires IsRecord(record) && record != []
    ensures Lines(AppendTo(mode, content, record)) == Lines(content) + [record]
  {
    if mode == AsWritten {
      AppendRecordRoundTrip(content, record);
    } else {
      AppendRecordFixedRoundTrip(content, record);
    }
  }

  /** A decimal id, a `:` and a decimal value form one line with no terminator. */
  lemma KeyValueRecord(id: string, value: string)
    requires IsDigits(id)
    requires forall k :: 0 <= k < |value| ==> IsDigit(value[k]) || value[k] == '-'
    ensures IsRecord(id + ":" + value) && id + ":" + value != []
  {
  }

  /** Three appends, one after the other. */
  lemma ApplyThree(mode: AppendMode, files: Files, a: Append, b: Append, c: Append)
    ensures ApplyAll(mode, files, [a, b, c])
         == ApplyAppend(mode, ApplyAppend(mode, ApplyAppend(mode, files, a), b), c)
  {
    var f1 := ApplyAppend(mode, files, a);
    var f2 := ApplyAppend(mode, f1, b);
    var f3 := ApplyAppend(mode, f2, c);
    assert [c][1..] == [];
    assert ApplyAll(mode, f2, [c]) == f3;
    assert [b, c][1..] == [c];
    assert ApplyAll(mode, f1, [b, c]) == f3;
    assert [a, b, c][1..] == [b, c];
  }

  /** The three records a successful registration appends, each as one new line of its file. */
  lemma {:induction false} SuccessAppendsLines(mode: AppendMode, files: Files, command: string, chatId: int,
                                               skipComments: bool)
    requires ReadyForAppend(mode, files)
    requires Transition(mode, files, command, chatId, skipComments).0.Registered?
    ensures var (reply, after) := Transition(mode, files, command, chatId, skipComments);
            && Lines(after.dmUsers) == Lines(files.dmUsers) + [reply.id]
            && Lines(after.notificationMap) == Lines(files.notificationMap) + [reply.id + ":" + Decimal(chatId)]
            && Lines(after.serverChannels) == Lines(files.serverChannels) + [reply.id + ":" + reply.channel]
  {
    var o := Register(files.dmUsers, command, chatId, skipComments);
    var id := o.reply.id;
    var channel := o.reply.channel;
    var mapRecord := id + ":" + Decimal(chatId);
    var channelRecord := id + ":" + channel;
    KeyValueRecord(id, Decimal(chatId));
    KeyValueRecord(id, channel);
    AppendToAddsLine(mode, files.dmUsers, id);
    AppendToAddsLine(mode, files.notificationMap, mapRecord);
    AppendToAddsLine(mode, files.serverChannels, channelRecord);
    ApplyThree(mode, files, Append(DmUsersFile, id), Append(NotificationMapFile, mapRecord),
               Append(ServerChannelsFile, channelRecord));
  }

  /** A trimmed `key:value` line that is not a comment contributes the pair its halves parse to. */
  lemma EntryOfLine<V>(key: string, value: string, skipComments: bool, parseValue: string -> Option<V>,
                       k: int, v: V)
    requires IsDigits(key)
    requires Trimmed(key + ":" + value)
    requires ParseInt(key) == Some(k) && parseValue(value) == Some(v)
    ensures EntryItem(key + ":" + value, skipComments, parseValue) == Keep((k, v))
  {
    var line := key + ":" + value;
    assert line == key + [':'] + value;
    assert ':' !in key;
    SplitFirstAt(key, ':', value);
    assert line[0] == key[0];
    DigitLineKept(line, skipComments);
  }

  /** A trimmed line that starts with a digit is neither blank nor a comment. */
  lemma DigitLineKept(line: string, skipComments: bool)
    requires Trimmed(line) && line != [] && IsDigit(line[0])
    ensures Strip(line) == line && !Ignored(line, skipComments)
  {
    assert line[..1] != "#" by {
      assert line[..1][0] == line[0];
    }
  }

  /** The loaders' view of the line a registration adds to `notification_map.txt`. */
  lemma NotificationLineBinds(id: string, chatId: int, skipComments: bool)
    requires IsDigits(id)
    ensures EntryItem(id + ":" + Decimal(chatId), skipComments, KeepText)
         == Keep((GroupedValue(id) as int, Decimal(chatId)))
  {
    var dec := Decimal(chatId);
    assert (id + ":" + dec)[0] == id[0];
    assert (id + ":" + dec)[|id + ":" + dec| - 1] == dec[|dec| - 1];
    ParseDigits(id);
    EntryOfLine(id, dec, skipComments, KeepText, GroupedValue(id) as int, dec);
  }

  /** The loaders' view of the line a registration adds to `server_channels.txt`. */
  lemma ChannelLineBinds(id: string, channel: string, skipComments: bool)
    requires IsDigits(id) && IsDigits(channel)
    ensures EntryItem(id + ":" + channel, skipComments, ParseInt)
         == Keep((GroupedValue(id) as int, GroupedValue(channel) as int))
  {
    assert (id + ":" + channel)[0] == id[0];
    assert (id + ":" + channel)[|id + ":" + channel| - 1] == channel[|channel| - 1];
    ParseDigits(id);
    ParseDigits(channel);
    EntryOfLine(id, channel, skipComments, ParseInt, GroupedValue(id) as int, GroupedValue(channel) as int);
  }

  /** What a loaded map becomes after one more binding line. */
  function Rebound<V>(before: Loaded<Dict<V>>, key: int, value: V): Loaded<Dict<V>>
  {
    match before
    case Loaded(d) => Loaded(Put(d, key, value))
    case Malformed(k) => Malformed(k)
  }

  /** What a loaded id list becomes after one more id line. */
  function Extended(before: Loaded<seq<int>>, id: int): Loaded<seq<int>>
  {
    match before
    case Loaded(ids) => Loaded(ids + [id])
    case Malformed(k) => Malformed(k)
  }

  /** The duplicate check sees a digit-string line added to `dm_users.txt`. */
  lemma StoredIdsGrow(lines: seq<string>, id: string, skipComments: bool)
    requires IsDigits(id)
    ensures StoredIds(lines + [id], skipComments) == StoredIds(lines, skipComments) + [id]
  {
    DigitLineKept(id, skipComments);
    var f := l => StoredItem(l, skipComments);
    ClassifyAppend(lines, id, f);
    CollectAppendKeep(Classify(lines, f), id);
  }

  /** Re-reading `dm_users.txt` after a digit-string line was added. */
  lemma DmUsersGrow(lines: seq<string>, id: string, skipComments: bool)
    requires IsDigits(id)
    ensures LoadDmUsers(lines + [id], skipComments)
         == Extended(LoadDmUsers(lines, skipComments), GroupedValue(id) as int)
  {
    DigitLineKept(id, skipComments);
    ParseDigits(id);
    var f := l => DmItem(l, skipComments);
    assert f(id) == Keep(GroupedValue(id) as int);
    ClassifyAppend(lines, id, f);
    CollectAppendKeep(Classify(lines, f), GroupedValue(id) as int);
  }

  /** Re-reading a map file after a line that binds `key` to `value` was added. */
  lemma MapGrows<V>(lines: seq<string>, line: string, skipComments: bool, parseValue: string -> Option<V>,
                    key: int, value: V)
    requires EntryItem(line, skipComments, parseValue) == Keep((key, value))
    ensures LoadMap(lines + [line], skipComments, parseValue)
         == Rebound(LoadMap(lines, skipComments, parseValue), key, value)
  {
    var f := l => EntryItem(l, skipComments, parseValue);
    ClassifyAppend(lines, line, f);
    BindAllAppend(Classify(lines, f), Keep((key, value)));
  }

  /**
   * Round trip with the loaders: after a successful registration of
   * `id` and `channel` from chat `chatId`, re-reading the files yields
   * `int(id)` appended to the DM list, `int(id)` bound to `str(chatId)`
   * and to `int(channel)`, and `id` among the stored ids; nothing else
   * changes. (A file that already failed to load still fails.)
   */
  lemma {:induction false} RegisterRoundTrip(mode: AppendMode, files: Files, command: string, chatId: int,
                                             skipComments: bool)
    requires ReadyForAppend(mode, files)
    requires Transition(mode, files, command, chatId, skipComments).0.Registered?
    ensures var (reply, after) := Transition(mode, files, command, chatId, skipComments);
            var key := GroupedValue(reply.id) as int;
            && StoredIds(Lines(after.dmUsers), skipComments) == StoredIds(Lines(files.dmUsers), skipComments) + [reply.id]
            && LoadDmUsers(Lines(after.dmUsers), skipComments)
               == Extended(LoadDmUsers(Lines(files.dmUsers), skipComments), key)
            && LoadNotificationMap(Lines(after.notificationMap), skipComments)
               == Rebound(LoadNotificationMap(Lines(files.notificationMap), skipComments), key, Decimal(chatId))
            && LoadServerChannelMap(Lines(after.serverChannels), skipComments)
               == Rebound(LoadServerChannelMap(Lines(files.serverChannels), skipComments), key,
                          GroupedValue(reply.channel) as int)
  {
    var (reply, after) := Transition(mode, files, command, chatId, skipComments);
    var id := reply.id;
    var key := GroupedValue(id) as int;
    SuccessAppendsLines(mode, files, command, chatId, skipComments);
    StoredIdsGrow(Lines(files.dmUsers), id, skipComments);
    DmUsersGrow(Lines(files.dmUsers), id, skipComments);
    NotificationLineBinds(id, chatId, skipComments);
    MapGrows(Lines(files.notificationMap), id + ":" + Decimal(chatId), skipComments, KeepText, key, Decimal(chatId));
    ChannelLineBinds(id, reply.channel, skipComments);
    MapGrows(Lines(files.serverChannels), id + ":" + reply.channel, skipComments, ParseInt,
             key, GroupedValue(reply.channel) as int);
  }

  /** Registering the same id again is refused as a duplicate and writes nothing. */
  lemma SecondRegistrationRejected(mode: AppendMode, files: Files, command: string, chatId: int,
                                   later: string, laterChat: int, skipComments: bool)
    requires ReadyForAppend(mode, files)
    requires Transition(mode, files, command, chatId, skipComments).0.Registered?
    requires |Tokens(later)| >= 3 && Tokens(later)[1] == Tokens(command)[1]
             && IsDigits(Tokens(later)[2])
    ensures var after := Transition(mode, files, command, chatId, skipComments).1;
            Transition(mode, after, later, laterChat, skipComments)
            == (AlreadyRegistered(Tokens(command)[1]), after)
  {
    RegisterRoundTrip(mode, files, command, chatId, skipComments);
  }

  /** Only the second and third tokens matter: trailing words change nothing. */
  lemma {:induction false} ExtraTokensIgnored(dmUsers: string, name: string, id: string, channel: string, extra: seq<string>,
                           chatId: int, skipComments: bool)
    requires IsWord(name) && IsWord(id) && IsWord(channel)
    requires forall k :: 0 <= k < |extra| ==> IsWord(extra[k])
    ensures Register(dmUsers, Unwords([name, id, channel] + extra), chatId, skipComments)
         == Register(dmUsers, Unwords([name, id, channel]), chatId, skipComments)
  {
    var long := [name, id, channel] + extra;
    TokensUnwords(long);
    TokensUnwords([name, id, channel]);
    DecideReadsTwoWords(dmUsers, long, [name, id, channel], chatId, skipComments);
  }

  /**
   * The duplicate check compares strings, while the loaders key by
   * `int()`: with `7` registered, `007` is accepted as new, although both
   * load as the integer 7.
   */
  lemma LeadingZerosNotDuplicates(skipComments: bool)
    ensures Decide("7\n", ["/register", "007", "5"], 1, skipComments).reply == Registered("007", "5")
    ensures ParseInt("007") == ParseInt("7") == Some(7)
  {
    SevenReadsBack();
    SevenStored(skipComments);
    DigitWords();
    FreshIdRegistered("7\n", ["/register", "007", "5"], 1, skipComments);
  }

  /** Digit words whose id is not stored are registered. */
  lemma FreshIdRegistered(dmUsers: string, args: seq<string>, chatId: int, skipComments: bool)
    requires |args| >= 3 && IsDigits(args[1]) && IsDigits(args[2])
    requires args[1] !in StoredIds(Lines(dmUsers), skipComments)
    ensures Decide(dmUsers, args, chatId, skipComments).reply == Registered(args[1], args[2])
  {
  }

  /** A `dm_users.txt` holding `7` does not list the string `007`. */
  lemma SevenStored(skipComments: bool)
    ensures "007" !in StoredIds(Lines("7\n"), skipComments)
  {
    LinesOfRecord("7");
    assert "7" + "\n" == "7\n";
    StoredIdsMembership(["7"], skipComments, "007");
    assert "007" != Strip("7");
  }

  lemma DigitWords()
    ensures IsDigits("007") && IsDigits("5")
  {
  }

  /** `int('007')` and `int('7')` are both 7. */
  lemma SevenReadsBack()
    ensures ParseInt("007") == Some(7) && ParseInt("7") == Some(7)
  {
    assert "0"[..0] == "";
    assert GroupedValue("0") == 0;
    assert "00"[..1] == "0";
    assert GroupedValue("00") == 0;
    assert "007"[..2] == "00";
    assert GroupedValue("007") == 7;
    assert "7"[..0] == "";
    assert GroupedValue("7") == 7;
    ParseDigits("007");
    ParseDigits("7");
  }

  /**
   * As written, a `notification_map.txt` whose last line lacks its
   * newline swallows the new record: `1:55` plus a registration of id 2
   * from chat 9 reads back as id 1 bound to `552:9`, and id 2 unbound.
   */
  lemma {:induction false} MissingNewlineLosesBinding(skipComments: bool)
    ensures var (reply, after) := Transition(AsWritten, Files("", "1:55", ""), "/register 2 3", 9, skipComments);
            && reply == Registered("2", "3")
            && LoadNotificationMap(Lines(after.notificationMap), skipComments) == Loaded([(1, "552:9")])
  {
    var files := Files("", "1:55", "");
    SampleTokens();
    SampleDecision(skipComments);
    var o := Register("", "/register 2 3", 9, skipComments);
    assert o == Decide("", ["/register", "2", "3"], 9, skipComments);
    NotificationAfterThree(AsWritten, files, o.appends[0], o.appends[1], o.appends[2]);
    assert o.appends == [o.appends[0], o.appends[1], o.appends[2]];
    MergedRecordReadsBack(skipComments);
  }

  /** Of three appends, one to each file in the handler's order, only the second touches `notification_map.txt`. */
  lemma NotificationAfterThree(mode: AppendMode, files: Files, a: Append, b: Append, c: Append)
    requires a.file == DmUsersFile && b.file == NotificationMapFile && c.file == ServerChannelsFile
    ensures ApplyAll(mode, files, [a, b, c]).notificationMap == AppendTo(mode, files.notificationMap, b.record)
  {
    ApplyThree(mode, files, a, b, c);
  }

  /** The command `/register 2 3` splits into its three words. */
  lemma SampleTokens()
    ensures Tokens("/register 2 3") == ["/register", "2", "3"]
  {
    assert IsWord("/register") && IsWord("2") && IsWord("3");
    TokensUnwords(["/register", "2", "3"]);
    SampleUnwords();
  }

  lemma SampleUnwords()
    ensures Unwords(["/register", "2", "3"]) == "/register 2 3"
  {
    assert ["/register", "2", "3"][1..] == ["2", "3"];
    assert ["2", "3"][1..] == ["3"];
    assert Unwords(["3"]) == "3";
    assert Unwords(["2", "3"]) == "2 3";
  }

  /** The registration of id 2, channel 3, from chat 9, with no one registered yet. */
  lemma SampleDecision(skipComments: bool)
    ensures Decide("", ["/register", "2", "3"], 9, skipComments)
         == Outcome(Registered("2", "3"), [Append(DmUsersFile, "2"), Append(NotificationMapFile, "2:9"),
                                           Append(ServerChannelsFile, "2:3")])
  {
    assert Decimal(9) == "9";
    assert "2" + ":" + Decimal(9) == "2:9";
    assert "2" + ":" + "3" == "2:3";
    assert Lines("") == [];
    assert StoredIds([], skipComments) == [];
  }

  /** `1:55` with `2:9\n` appended reads as the single binding of 1 to `552:9`. */
  lemma MergedRecordReadsBack(skipComments: bool)
    ensures LoadNotificationMap(Lines(AppendRecord("1:55", "2:9")), skipComments) == Loaded([(1, "552:9")])
  {
    MergedLines();
    MergedLineBinds(skipComments);
    SingleLineMap("1:552:9", skipComments, KeepText, 1, "552:9");
  }

  /** A file of one line that binds `key` to `value` loads as that one binding. */
  lemma SingleLineMap<V>(line: string, skipComments: bool, parseValue: string -> Option<V>, key: int, value: V)
    requires EntryItem(line, skipComments, parseValue) == Keep((key, value))
    ensures LoadMap([line], skipComments, parseValue) == Loaded([(key, value)])
  {
    var item := Keep((key, value));
    var f := l => EntryItem(l, skipComments, parseValue);
    var items := Classify([line], f);
    assert LoadMap([line], skipComments, parseValue) == BindAll(items);
    assert |items| == 1 && items[0] == item;
    assert items == [item];
    BindOne(key, value);
  }

  /** The loop over a single kept pair builds the one-entry `dict`. */
  lemma BindOne<V>(key: int, value: V)
    ensures BindAll([Keep((key, value))]) == Loaded([(key, value)])
  {
    var item := Keep((key, value));
    assert [item] == [] + [item];
    BindAllAppend([], item);
    assert BindAll<V>([]) == Loaded([]);
    assert Put<V>([], key, value) == [(key, value)];
  }

  lemma MergedLines()
    ensures Lines(AppendRecord("1:55", "2:9")) == ["1:552:9"]
  {
    AppendRecordMerges("1:55", "2:9");
    LinesOfUnterminated("1:55");
    assert "1:55" + "2:9" == "1:552:9";
  }

  lemma MergedLineBinds(skipComments: bool)
    ensures EntryItem("1:552:9", skipComments, KeepText) == Keep((1, "552:9"))
  {
    assert GroupedValue("1") == 1;
    ParseDigits("1");
    assert "1:552:9" == "1" + ":" + "552:9";
    EntryOfLine("1", "552:9", skipComments, KeepText, 1, "552:9");
  }
}

=== FILE: routing.dfy ===
/**
 * The routing logic of `on_message`: for one Discord message, the list of
 * Telegram alerts the handler asks `send_telegram_message` to deliver, in
 * order. Each decision also records the Discord id it was made for.
 */
module Routing {

  import opened Basics
  import opened Dict
  import opened Matcher

  /** What the handler reads from a Discord message. */
  datatype Message = Message(authorId: int, channelId: int, isDm: bool, content: string)

  /** The module-level state the handler consults, as loaded at startup. */
  datatype Config = Config(
    botId: int,                       // `bot.user`
    wordlist: seq<string>,
    dmUsers: seq<int>,                // `dm_user_ids`
    notification: Dict<string>,       // `notification_map`
    channels: Dict<int>,              // `server_channel_map`
    fallback: Option<string>)         // `TELEGRAM_CHAT_ID`

  /** The alert texts of the channel branch and the DM branch. */
  datatype Texts = Texts(channelAlert: string, dmAlert: string)

  /** One call of `send_telegram_message(text, chat)`, made on behalf of `subject`. */
  datatype Decision = Decision(subject: int, chat: Option<string>, text: string)

  /** `notification_map.get(id, TELEGRAM_CHAT_ID)`. */
  function Target(cfg: Config, id: int): (r: Option<string>)
    ensures HasKey(cfg.notification, id) ==> r == Some(Get(cfg.notification, id).value)
    ensures !HasKey(cfg.notification, id) ==> r == cfg.fallback
  {
    match Get(cfg.notification, id)
    case Some(chat) => Some(chat)
    case None => cfg.fallback
  }

  /**
   * The loop over `server_channel_map.items()`: one decision per binding
   * whose channel is the message's channel, when the content matches.
   */
  function ChannelDecisions(bindings: Dict<int>, cfg: Config, msg: Message, text: string)
    : (r: seq<Decision>)
    ensures |r| <= |bindings|
    ensures forall i :: 0 <= i < |r| ==> r[i] == Decision(r[i].subject, Target(cfg, r[i].subject), text)
    ensures forall i :: 0 <= i < |r| ==> (r[i].subject, msg.channelId) in bindings
    ensures r != [] ==> Matches(msg.content, cfg.wordlist)
  {
    if bindings == [] then []
    else
      var (id, channel) := bindings[0];
      var here := if msg.channelId == channel && Matches(msg.content, cfg.wordlist)
                  then [Decision(id, Target(cfg, id), text)] else [];
      here + ChannelDecisions(bindings[1..], cfg, msg, text)
  }

  /**
   * The DM branch: at most one decision, produced exactly for a DM from a
   * listed user whose content matches, addressed to that user's target.
   */
  function DmDecisions(cfg: Config, msg: Message, text: string): (r: seq<Decision>)
    ensures |r| <= 1
    ensures r != [] <==> msg.isDm && msg.authorId in cfg.dmUsers && Matches(msg.content, cfg.wordlist)
    ensures forall i :: 0 <= i < |r| ==> r[i] == Decision(msg.authorId, Target(cfg, msg.authorId), text)
  {
    if msg.isDm && msg.authorId in cfg.dmUsers && Matches(msg.content, cfg.wordlist)
    then [Decision(msg.authorId, Target(cfg, msg.authorId), text)]
    else []
  }

  /** `on_message`, up to the calls of `send_telegram_message`. */
  function Route(cfg: Config, msg: Message, texts: Texts): (r: seq<Decision>)
    ensures msg.authorId == cfg.botId ==> r == []
    ensures !Matches(msg.content, cfg.wordlist) ==> r == []
  {
    if msg.authorId == cfg.botId then []
    else ChannelDecisions(cfg.channels, cfg, msg, texts.channelAlert) + DmDecisions(cfg, msg, texts.dmAlert)
  }

  /** No two decisions are made for the same id. */
  predicate DistinctSubjects(r: seq<Decision>)
  {
    forall i, j :: 0 <= i < j < |r| ==> r[i].subject != r[j].subject
  }

  /** Some decision is made for `id`. */
  ghost predicate HasDecisionFor(r: seq<Decision>, id: int)
  {
    exists i :: 0 <= i < |r| && r[i].subject == id
  }

  /**
   * Channel routing, exactly one decision per binding: when the content
   * matches, an id gets a decision exactly when it is bound to the
   * message's channel, and no id gets two.
   */
  lemma {:induction false} ChannelRouting(bindings: Dict<int>, cfg: Config, msg: Message, text: string)
    requires UniqueKeys(bindings)
    ensures DistinctSubjects(ChannelDecisions(bindings, cfg, msg, text))
    ensures forall id :: HasDecisionFor(ChannelDecisions(bindings, cfg, msg, text), id)
                         <==> Matches(msg.content, cfg.wordlist) && Get(bindings, id) == Some(msg.channelId)
  {
    if bindings != [] {
      var rest := bindings[1..];
      assert UniqueKeys(rest);
      ChannelRouting(rest, cfg, msg, text);
      var tail := ChannelDecisions(rest, cfg, msg, text);
      forall i | 0 <= i < |tail| ensures tail[i].subject != bindings[0].0 {
        var j :| 0 <= j < |rest| && rest[j] == (tail[i].subject, msg.channelId);
        assert bindings[j + 1] == rest[j];
      }
      forall id ensures HasDecisionFor(ChannelDecisions(bindings, cfg, msg, text), id)
                        <==> Matches(msg.content, cfg.wordlist) && Get(bindings, id) == Some(msg.channelId) {
        ChannelRoutingStep(bindings, cfg, msg, text, id);
      }
    }
  }

  /** The inductive step of `ChannelRouting`, for one id. */
  lemma {:induction false} ChannelRoutingStep(bindings: Dict<int>, cfg: Config, msg: Message, text: string, id: int)
    requires bindings != []
    requires forall x :: HasDecisionFor(ChannelDecisions(bindings[1..], cfg, msg, text), x)
                         <==> Matches(msg.content, cfg.wordlist) && Get(bindings[1..], x) == Some(msg.channelId)
    requires forall i :: 0 <= i < |ChannelDecisions(bindings[1..], cfg, msg, text)|
                         ==> ChannelDecisions(bindings[1..], cfg, msg, text)[i].subject != bindings[0].0
    ensures HasDecisionFor(ChannelDecisions(bindings, cfg, msg, text), id)
            <==> Matches(msg.content, cfg.wordlist) && Get(bindings, id) == Some(msg.channelId)
  {
    var r := ChannelDecisions(bindings, cfg, msg, text);
    var tail := ChannelDecisions(bindings[1..], cfg, msg, text);
    var (first, channel) := bindings[0];
    var m := Matches(msg.content, cfg.wordlist);
    var here := if msg.channelId == channel && m then [Decision(first, Target(cfg, first), text)] else [];
    assert r == here + tail;
    GetFirst(bindings, id);
    HasDecisionConcat(here, tail, id);
    if here != [] {
      assert HasDecisionFor(here, id) <==> id == first by {
        assert here[0].subject == first;
      }
    }
  }

  /** A concatenation has a decision for `id` exactly when one of its parts does. */
  lemma HasDecisionConcat(a: seq<Decision>, b: seq<Decision>, id: int)
    ensures HasDecisionFor(a + b, id) <==> HasDecisionFor(a, id) || HasDecisionFor(b, id)
  {
    if HasDecisionFor(a + b, id) {
      var i :| 0 <= i < |a + b| && (a + b)[i].subject == id;
      if i >= |a| {
        assert b[i - |a|].subject == id;
      }
    }
    if HasDecisionFor(b, id) {
      var i :| 0 <= i < |b| && b[i].subject == id;
      assert (a + b)[|a| + i].subject == id;
    }
    if HasDecisionFor(a, id) {
      var i :| 0 <= i < |a| && a[i].subject == id;
      assert (a + b)[i].subject == id;
    }
  }

  /** `Get` on a non-empty dict looks at the first pair, then the rest. */
  lemma GetFirst<V>(d: Dict<V>, id: int)
    requires d != []
    ensures Get(d, id) == (if id == d[0].0 then Some(d[0].1) else Get(d[1..], id))
  {
    if id != d[0].0 {
      assert forall i :: 0 < i < |d| ==> d[1..][i - 1] == d[i];
      if HasKey(d, id) {
        var i :| 0 <= i < |d| && d[i].0 == id;
        assert d[1..][i - 1].0 == id;
      }
      match IndexOf(d[1..], id)
      case None =>
      case Some(i) =>
        assert IndexOf(d, id) == Some(i + 1);
    }
  }

  /**
   * A matching message in a channel bound to a single id yields exactly
   * one alert, addressed to that id's chat (or the fallback).
   */
  lemma SoleBinding(cfg: Config, msg: Message, texts: Texts, id: int)
    requires UniqueKeys(cfg.channels)
    requires msg.authorId != cfg.botId && !msg.isDm
    requires Matches(msg.content, cfg.wordlist)
    requires Get(cfg.channels, id) == Some(msg.channelId)
    requires forall other :: other != id ==> Get(cfg.channels, other) != Some(msg.channelId)
    ensures Route(cfg, msg, texts) == [Decision(id, Target(cfg, id), texts.channelAlert)]
  {
    var r := ChannelDecisions(cfg.channels, cfg, msg, texts.channelAlert);
    ChannelRouting(cfg.channels, cfg, msg, texts.channelAlert);
    forall i | 0 <= i < |r| ensures r[i].subject == id {
      assert HasDecisionFor(r, r[i].subject);
    }
    assert HasDecisionFor(r, id);
    var i :| 0 <= i < |r| && r[i].subject == id;
    assert r[0].subject == r[|r| - 1].subject;
    assert r == [r[0]];
  }
}

=== FILE: text.dfy ===
/**
 * The few Python string operations the bots rely on, restricted to ASCII:
 * `str.strip()`, `str.lower()`, the `in` substring test, `str.split()`,
 * `str.isdigit()`, `str.startswith()` and `str.split(':', 1)`.
 */
module Text {

  import opened Basics

  /** ASCII characters Python's `str.isspace()` accepts. */
  predicate IsSpace(c: char)
  {
    c == ' ' || c == '\t' || c == '\n' || c == '\r' || c == '\U{0B}' || c == '\U{0C}'
    || c == '\U{1C}' || c == '\U{1D}' || c == '\U{1E}' || c == '\U{1F}'
  }

  predicate IsDigit(c: char)
  {
    '0' <= c <= '9'
  }

  predicate IsUpper(c: char)
  {
    'A' <= c <= 'Z'
  }

  /** No character of `s` is an upper-case ASCII letter. */
  predicate IsLowerCase(s: string)
  {
    forall k :: 0 <= k < |s| ==> !IsUpper(s[k])
  }

  /** Python's `str.isdigit()` on ASCII text: non-empty and every character a digit. */
  predicate IsDigits(s: string)
  {
    |s| > 0 && forall k :: 0 <= k < |s| ==> IsDigit(s[k])
  }

  /** Neither end of `s` is whitespace (vacuously true of the empty string). */
  predicate Trimmed(s: string)
  {
    s == [] || (!IsSpace(s[0]) && !IsSpace(s[|s| - 1]))
  }

  /** Number of whitespace characters at the front of `s`. */
  function LeadingSpaces(s: string): (n: nat)
    ensures n <= |s|
    ensures forall k :: 0 <= k < n ==> IsSpace(s[k])
    ensures n < |s| ==> !IsSpace(s[n])
  {
    if s == [] || !IsSpace(s[0]) then 0 else 1 + LeadingSpaces(s[1..])
  }

  /** Number of whitespace characters at the back of `s`. */
  function TrailingSpaces(s: string): (n: nat)
    ensures n <= |s|
    ensures forall k :: |s| - n <= k < |s| ==> IsSpace(s[k])
    ensures n < |s| ==> !IsSpace(s[|s| - 1 - n])
  {
    if s == [] || !IsSpace(s[|s| - 1]) then 0 else 1 + TrailingSpaces(s[..|s| - 1])
  }

  /** Python's `str.strip()`: `s` without its leading and trailing whitespace. */
  function Strip(s: string): (r: string)
    ensures |r| <= |s|
    ensures Trimmed(r)
    ensures r == [] <==> forall k :: 0 <= k < |s| ==> IsSpace(s[k])
    ensures Trimmed(s) ==> r == s
    ensures exists a, b :: && 0 <= a <= b <= |s| && r == s[a..b]
                           && (forall k :: 0 <= k < a ==> IsSpace(s[k]))
                           && (forall k :: b <= k < |s| ==> IsSpace(s[k]))
  {
    var t := s[LeadingSpaces(s)..];
    StripIsSlice(s, LeadingSpaces(s), t, TrailingSpaces(t));
    t[..|t| - TrailingSpaces(t)]
  }

  /** Dropping a prefix of `s` and then a suffix of the rest keeps the slice between them. */
  lemma StripIsSlice(s: string, a: nat, t: string, n: nat)
    requires a <= |s| && t == s[a..] && n <= |t|
    requires forall k :: |t| - n <= k < |t| ==> IsSpace(t[k])
    ensures t[..|t| - n] == s[a..|s| - n]
    ensures forall k :: |s| - n <= k < |s| ==> IsSpace(s[k])
  {
    forall k | |s| - n <= k < |s| ensures IsSpace(s[k]) {
      assert s[k] == t[k - a];
    }
  }

  function LowerChar(c: char): (d: char)
  {
    if IsUpper(c) then (c as int - 'A' as int + 'a' as int) as char else c
  }

  /** Python's `str.lower()` on ASCII: every upper-case letter replaced by its lower-case form. */
  function Lower(s: string): (r: string)
    ensures |r| == |s|
    ensures forall k :: 0 <= k < |s| ==> r[k] == LowerChar(s[k])
    ensures IsLowerCase(r)
  {
    if s == [] then [] else [LowerChar(s[0])] + Lower(s[1..])
  }

  /** Lower-casing text that has no upper-case letters changes nothing. */
  lemma LowerOfLowerCase(s: string)
    requires IsLowerCase(s)
    ensures Lower(s) == s
  {
  }

  /** `Lower` commutes with taking a slice. */
  lemma {:induction false} LowerSlice(s: string, i: int, j: int)
    requires 0 <= i <= j <= |s|
    ensures Lower(s)[i..j] == Lower(s[i..j])
  {
    var a := Lower(s)[i..j];
    var b := Lower(s[i..j]);
    assert |a| == |b|;
    forall k | 0 <= k < |a| ensures a[k] == b[k] {
      assert a[k] == LowerChar(s[i + k]);
    }
  }

  /** `n` occurs in `h` starting at index `i`. */
  predicate OccursAt(h: string, n: string, i: int)
  {
    0 <= i && i + |n| <= |h| && h[i..i + |n|] == n
  }

  /** Python's `n in h` for strings, written as a scan from the front of `h`. */
  predicate Contains(h: string, n: string)
    decreases |h|
  {
    (|n| <= |h| && h[..|n|] == n) || (h != [] && Contains(h[1..], n))
  }

  /** The scan agrees with "there is a position where `n` occurs". */
  lemma {:induction false} ContainsIff(h: string, n: string)
    ensures Contains(h, n) <==> exists i :: OccursAt(h, n, i)
    decreases |h|
  {
    if |n| <= |h| && h[..|n|] == n {
      assert OccursAt(h, n, 0);
    } else if h == [] {
    } else {
      ContainsIff(h[1..], n);
      if exists i :: OccursAt(h, n, i) {
        var i :| OccursAt(h, n, i);
        OccursShiftDown(h, n, i);
      }
      if Contains(h[1..], n) {
        var i :| OccursAt(h[1..], n, i);
        OccursShiftUp(h, n, i);
      }
    }
  }

  /** An occurrence past the first position is an occurrence in the tail. */
  lemma OccursShiftDown(h: string, n: string, i: int)
    requires OccursAt(h, n, i) && !(|n| <= |h| && h[..|n|] == n)
    ensures h != [] && OccursAt(h[1..], n, i - 1)
  {
    assert h[0..|n|] == h[..|n|];
    assert h[1..][i - 1..i - 1 + |n|] == h[i..i + |n|];
  }

  /** An occurrence in the tail is an occurrence one position further on. */
  lemma OccursShiftUp(h: string, n: string, i: int)
    requires h != [] && OccursAt(h[1..], n, i)
    ensures OccursAt(h, n, i + 1)
  {
    assert h[i + 1..i + 1 + |n|] == h[1..][i..i + |n|];
  }

  /** An occurrence survives lower-casing both sides: the match is case-insensitive. */
  lemma ContainsLower(h: string, n: string)
    requires Contains(h, n)
    ensures Contains(Lower(h), Lower(n))
  {
    ContainsIff(h, n);
    var i :| OccursAt(h, n, i);
    OccursLower(h, n, i);
    ContainsIff(Lower(h), Lower(n));
  }

  lemma OccursLower(h: string, n: string, i: int)
    requires OccursAt(h, n, i)
    ensures OccursAt(Lower(h), Lower(n), i)
  {
    assert |Lower(h)| == |h| && |Lower(n)| == |n|;
    LowerSlice(h, i, i + |n|);
    assert Lower(h)[i..i + |n|] == Lower(n);
  }

  /** `s` begins with `p` (Python's `s.startswith(p)`). */
  predicate StartsWith(s: string, p: string)
  {
    |p| <= |s| && s[..|p|] == p
  }

  /** Index of the first occurrence of `c` in `s`, if any. */
  function FirstIndexOf(s: string, c: char): (r: Option<nat>)
    ensures r.Some? ==> r.value < |s| && s[r.value] == c
    ensures r.Some? ==> forall k :: 0 <= k < r.value ==> s[k] != c
    ensures r.None? <==> forall k :: 0 <= k < |s| ==> s[k] != c
  {
    if s == [] then None
    else if s[0] == c then Some(0)
    else match FirstIndexOf(s[1..], c)
      case None => None
      case Some(i) => Some(i + 1)
  }

  /** Python's `s.split(c, 1)` when `c in s`: the text before the first `c` and the text after it. */
  datatype Halves = Halves(before: string, after: string)

  function SplitFirst(s: string, c: char): (r: Halves)
    requires c in s
    ensures r.before + [c] + r.after == s
    ensures c !in r.before
  {
    match FirstIndexOf(s, c)
    case Some(i) => Halves(s[..i], s[i + 1..])
    case None => assert false; Halves([], [])
  }

  /** Splitting `a + [c] + b` at its first `c` gives back `a` and `b` when `a` has no `c`. */
  lemma SplitFirstAt(a: string, c: char, b: string)
    requires c !in a
    ensures c in a + [c] + b
    ensures SplitFirst(a + [c] + b, c) == Halves(a, b)
  {
    var s := a + [c] + b;
    assert s[|a|] == c;
    assert forall k :: 0 <= k < |a| ==> s[k] == a[k];
    assert FirstIndexOf(s, c) == Some(|a|);
    assert s[..|a|] == a;
    assert s[|a| + 1..] == b;
  }

  /** Length of the run of non-whitespace characters at the front of `s`. */
  function WordLength(s: string): (n: nat)
    ensures n <= |s|
    ensures forall k :: 0 <= k < n ==> !IsSpace(s[k])
    ensures n < |s| ==> IsSpace(s[n])
  {
    if s == [] || IsSpace(s[0]) then 0 else 1 + WordLength(s[1..])
  }

  /** A word as `str.split()` produces it: non-empty and free of whitespace. */
  predicate IsWord(w: string)
  {
    w != [] && forall k :: 0 <= k < |w| ==> !IsSpace(w[k])
  }

  /** `s` with every whitespace character removed. */
  function NonSpace(s: string): string
  {
    if s == [] then [] else (if IsSpace(s[0]) then [] else [s[0]]) + NonSpace(s[1..])
  }

  /** Words run together, as `''.join(ws)`. */
  function Concat(ws: seq<string>): string
  {
    if ws == [] then [] else ws[0] + Concat(ws[1..])
  }

  /** A whitespace-free prefix passes through `NonSpace` unchanged. */
  lemma {:induction false} NonSpaceOfWord(s: string, n: nat)
    requires n <= |s|
    requires forall k :: 0 <= k < n ==> !IsSpace(s[k])
    ensures NonSpace(s) == s[..n] + NonSpace(s[n..])
  {
    if n > 0 {
      NonSpaceOfWord(s[1..], n - 1);
      assert s[1..][n - 1..] == s[n..];
      assert [s[0]] + s[1..][..n - 1] == s[..n];
    }
  }

  /**
   * Python's `str.split()` with no argument: the maximal runs of
   * non-whitespace, in order, which together hold every non-whitespace
   * character of `s`.
   */
  function Tokens(s: string): (r: seq<string>)
    ensures forall k :: 0 <= k < |r| ==> IsWord(r[k])
    ensures Concat(r) == NonSpace(s)
    decreases |s|
  {
    if s == [] then []
    else if IsSpace(s[0]) then Tokens(s[1..])
    else
      var n := WordLength(s);
      var rest := Tokens(s[n..]);
      NonSpaceOfWord(s, n);
      assert ([s[..n]] + rest)[1..] == rest;
      [s[..n]] + rest
  }

  /** A whitespace character ends a word: the words of each side of it, one after the other. */
  lemma {:induction false} TokensAtSpace(a: string, c: char, b: string)
    requires IsSpace(c)
    ensures Tokens(a + [c] + b) == Tokens(a) + Tokens(b)
    decreases |a|
  {
    var s := a + [c] + b;
    if a == [] {
      assert s[1..] == b;
    } else if IsSpace(a[0]) {
      assert s[1..] == a[1..] + [c] + b;
      TokensAtSpace(a[1..], c, b);
    } else {
      var m := WordLength(a);
      WordLengthBeforeSpace(a, [c] + b);
      assert a + [c] + b == a + ([c] + b);
      assert s[..m] == a[..m];
      assert s[m..] == a[m..] + [c] + b;
      TokensAtSpace(a[m..], c, b);
    }
  }

  /** Text that is empty or starts with whitespace does not extend the first word. */
  lemma {:induction false} WordLengthBeforeSpace(a: string, rest: string)
    requires rest == [] || IsSpace(rest[0])
    ensures WordLength(a + rest) == WordLength(a)
  {
    if a != [] && !IsSpace(a[0]) {
      assert (a + rest)[1..] == a[1..] + rest;
      WordLengthBeforeSpace(a[1..], rest);
    }
  }

  /** Words joined with single spaces, as a user would type a command. */
  function Unwords(ws: seq<string>): string
  {
    if ws == [] then []
    else if |ws| == 1 then ws[0]
    else ws[0] + " " + Unwords(ws[1..])
  }

  /** `Tokens` recovers the words that `Unwords` joined. */
  lemma {:induction false} TokensUnwords(ws: seq<string>)
    requires forall k :: 0 <= k < |ws| ==> IsWord(ws[k])
    ensures Tokens(Unwords(ws)) == ws
  {
    if ws == [] {
    } else if |ws| == 1 {
      TokensOfWord(ws[0], []);
      assert ws[0] + [] == ws[0];
    } else {
      TokensUnwords(ws[1..]);
      var rest := Unwords(ws[1..]);
      assert ws[0] + " " + rest == ws[0] + (" " + rest);
      TokensOfWord(ws[0], " " + rest);
      assert (" " + rest)[1..] == rest;
    }
  }

  /** A word followed by text that is empty or begins with whitespace is the first token. */
  lemma TokensOfWord(w: string, rest: string)
    requires IsWord(w)
    requires rest == [] || IsSpace(rest[0])
    ensures Tokens(w + rest) == [w] + Tokens(rest)
  {
    var s := w + rest;
    WordLengthOfWord(w, rest);
    assert s[..|w|] == w;
    assert s[|w|..] == rest;
  }

  lemma {:induction false} WordLengthOfWord(w: string, rest: string)
    requires forall k :: 0 <= k < |w| ==> !IsSpace(w[k])
    requires rest == [] || IsSpace(rest[0])
    ensures WordLength(w + rest) == |w|
  {
    if w != [] {
      assert (w + rest)[1..] == w[1..] + rest;
      WordLengthOfWord(w[1..], rest);
    }
  }
}
